=== FILE: README.md ===
# enem-extractor: a verified model of the year-mode crawl decisions

`enemd` downloads ENEM exam booklets ("Prova") and answer keys ("Gabarito")
from the INEP portal. Its whole logic lives in one function, `Download`, in
`enemd/main.py`. This project models the decisions that function makes in
year mode, as pure Dafny functions over immutable data:

- **Year selection** (`Years`): the availability probe that fixes
  `RangeMax`, the loop over `range(1998, RangeMax + 1)` or over the user's
  `--Year` list, and the `Type` 2 skip that happens before a page is requested.
- **Listing fold** (`Listing`): the children of the listing container are
  an abstract sequence of `Node`s. The fold carries a sticky `Tab` and
  `Title`, both `"Undefined"` at the start of each year. It classifies every
  child (any tag name containing `h` is a heading; `p` and `div` are titles,
  a `div` through its first `p`; `ul` is a group of links) and emits one
  group per `ul`. A `div` without a `p` raises `AttributeError`, so the
  groups before it are still handled and then the run ends.
- **Content mode and filters** (`Selection`): the choice of the first
  anchor whose text is exactly `Prova` / `Gabarito`, the removal of the
  `http//` typo, the `Mode` 3 drop, and the `Inlink`, `InTitle` and `InTab`
  substring filters.
- **Per-link outcome and error log** (`Downloads`, `Crawl`): the decision
  between failure, skip and write for each link, and how each failure
  enters `ErrorLogs` under `str(Year)`.
- **Composition** (`Crawl.YearMode`): the whole year-mode run over a
  `World`. The world supplies the current year, the reply to each page and
  link request, and the files present before the run. The run produces a
  trace of page requests (the probe's included), directories, link
  requests and files opened for writing. A completed run also produces the
  error log. A run that an uncaught exception stops keeps the trace of what
  it did up to that point, but writes no log.

Python semantics are written out where they matter. `Text` models
`str.strip()` with Python's whitespace set, BeautifulSoup's
`get_text(strip=True)`, substring `in`, `str.replace` (left to right,
non-overlapping), `str(int)` and `posixpath.join`. `Type` and `Mode` stay
plain integers, because the command line accepts any integer. The code only
compares them with 0, 1, 2 and 3.

The model follows the code as written, including these consequences of
it:

- The error log is not always a valid retry manifest. An HTTP failure
  *extends* the year's list with three loose values (line 267) instead of
  appending one record (`Downloads.HttpFailureBreaksManifest`). So the
  log does not round-trip, and no round-trip property is claimed.
- "Both strictly" (`Mode` 3) is judged before filtering (line 222 vs 226).
  A group kept by it can still end up with one link
  (`Selection.StrictThenFilterLeavesOneLink`).
- Only `Type` 1 replaces the year range by the user's list. Any other
  non-zero `Type` except 2 filters inclusively but keeps the whole range
  (`Years.OtherTypesVisitWholeRange`).
- A failure raised by `Session.get` is logged with the value `File` last held
  (line 295). That is the previous link's destination, because `File` is
  assigned only after the request (line 261). If no link got that far
  earlier in the run, the handler itself raises and the run ends without
  writing a log (`Crawl.ProcessLink`).
- An anchor chosen by the content mode that has no `href` makes
  `Exam["href"]` raise `KeyError` outside any `try`, which ends the run,
  whenever that anchor is read (`Selection.FailsIffHrefRead`).

## Model

| member | source | states |
|---|---|---|
| Text.Strip | enemd/main.py:201 | `str.strip()`: the result is the input with only whitespace cut from either end, and it neither starts nor ends with whitespace |
| Text.GetText | enemd/main.py:201 | `get_text(strip=True)` joins stripped text nodes, so the text never starts or ends with whitespace |
| Text.ContainsIff | enemd/main.py:200 | the substring test used by every filter holds exactly when the pattern occurs at some index |
| Text.ReplaceSingleChar | enemd/main.py:201 | `replace("/", "-")` rewrites each character on its own, keeps the length and leaves no `/` |
| Text.DeleteShrinks | enemd/main.py:216 | deleting `http//` never lengthens an href and shortens it exactly when the typo occurs |
| Text.IntToStringInjective | enemd/main.py:265-267 | distinct years give distinct `str(Year)` keys of the error log |
| Listing.LabelClean | enemd/main.py:201-207 | every category or title label is stripped and contains no `/` |
| Listing.ReachedIsFirstBareDiv | enemd/main.py:204-207 | the loop reads the children up to the first `div` without a `p`, and the listing is broken exactly when such a `div` exists |
| Listing.ListPositionsAreUls | enemd/main.py:194-212 | the positions that emit a group are exactly the `ul` children the loop reaches, in document order |
| Listing.ParseIsOneGroupPerList | enemd/main.py:194-212 | the fold emits one group per such position, in order, carrying that `ul`'s anchors and the labels in force when it was reached |
| Listing.LastSetter | enemd/main.py:191-207 | finds the most recent heading (for `Tab`) or `p`/`div` (for `Title`) before a child: no later child sets that label |
| Listing.Sticky | enemd/main.py:191-207 | the label in force at any child is the text of the most recent child that sets it, or `"Undefined"` when there is none since the start of the year |
| Listing.ParseLabelsClean | enemd/main.py:191-212 | every emitted group's `Tab` and `Title` is `"Undefined"` or stripped text, and never contains `/` |
| Selection.FirstWithText | enemd/main.py:211-212 | `find('a', string=...)` returns the first anchor whose text is exactly the given word, or none when no anchor has it |
| Selection.FixHrefChangesIffTypo | enemd/main.py:215-219 | the href normalisation changes an href exactly when it contains `http//`, and never lengthens it |
| Selection.FixHrefExample | enemd/main.py:216 | `http//dominio.com/prova.pdf` becomes `dominio.com/prova.pdf` |
| Selection.FixHrefNotIdempotent | enemd/main.py:216 | `hthttp//tp//` becomes `http//`, so normalising twice differs from normalising once |
| Selection.LinkLoopIsIndependent | enemd/main.py:226-234 | the `Inlink` loop decides the exam and the answer key independently: under `Type` 2 a link dies when any string occurs in its href, otherwise unless every string occurs; a nulled link stays null; the loop fails only on a present anchor without href |
| Selection.LabelLoopKeepsIffPasses | enemd/main.py:236-246 | a title or category filter keeps both links when the label passes (inclusive: every string occurs; exclusive: none occurs) and nulls both otherwise |
| Selection.SelectMeaning | enemd/main.py:211-252 | with hrefs present, a group is skipped by strict mode or planned with exactly the links that pass the link, title and category filters, and with both extracted links when `Type` is 0 |
| Selection.SkippedIffStrictAndIncomplete | enemd/main.py:211-223 | a group gets no plan (and no failure) exactly when `Mode` is 3 and `Prova` or `Gabarito` was missing at extraction |
| Selection.ModeExcludes | enemd/main.py:211-212 | `Mode` 1 never plans an exam link and `Mode` 0 never plans an answer-key link |
| Selection.FilterOnlyRemoves | enemd/main.py:226-252 | each planned link is absent or is exactly the normalised href extracted for it |
| Selection.FailsIffHrefRead | enemd/main.py:228-252 | the run fails on a group exactly when a kept anchor without `href` is read by the link filter or reaches the download list |
| Selection.StrictThenFilterLeavesOneLink | enemd/main.py:222-234 | a `Mode` 3 group with both links is planned with only its exam when the link filter rejects the answer key |
| Years.RangeMax | enemd/main.py:111-118 | `RangeMax` is the current year when its page answers 2xx, the year before when only that one does; two failed probes exit, and a raising probe ends the run |
| Years.Span | enemd/main.py:175 | `range(lo, hi + 1)` holds `hi - lo + 1` consecutive years starting at `lo` |
| Years.Fetched | enemd/main.py:175-180 | the requested years are exactly the loop's years that the `Type` 2 filter does not skip |
| Years.InclusiveVisitsListedYears | enemd/main.py:175 | `Type` 1 requests exactly the user's years, in their order, with duplicates and no range check |
| Years.OtherTypesVisitWholeRange | enemd/main.py:175-180 | any `Type` other than 1 and 2 requests every year from 1998 to `RangeMax` in ascending order |
| Years.ExclusiveSkipsListedYears | enemd/main.py:175-180 | `Type` 2 requests a year's page exactly when the year is in 1998..`RangeMax` and not listed, in ascending order |
| Downloads.Decide | enemd/main.py:259-290 | a raising request or a non-2xx status is a failure carrying that error or status; otherwise an existing file without `Replace` is skipped; a file is only written, or its save fails with the error raised while saving, when it is absent or `Replace` is on |
| Downloads.StatusBeforeExistence | enemd/main.py:263-271 | a non-2xx status is a failure whether or not the file exists |
| Downloads.AddEntries | enemd/main.py:265-267 | adding to the log creates the year's list when absent, extends it at the end and leaves every other year as it was |
| Downloads.FailureEntries | enemd/main.py:263-295 | how many entries an outcome adds: one for an exception, three for a non-2xx status, none for a skip or a write |
| Downloads.Record | enemd/main.py:263-295 | one outcome changes only its own year's list, never removes an entry, and adds exactly the entries of that outcome |
| Downloads.ExceptionKeepsManifest | enemd/main.py:291-295 | exception failures keep every entry a three-element record readable by the retry mode |
| Downloads.HttpFailureBreaksManifest | enemd/main.py:267 | after an HTTP failure the log holds entries that are not records |
| Downloads.JoinExtends | enemd/main.py:248 | joining a segment without `/` keeps the directory as a prefix |
| Crawl.ProcessLink | enemd/main.py:254-295 | an absent or empty link is not requested. A raising request appends `[Item, File, repr(E)]` with the previously bound `File`. If `File` was never bound, the run ends after the handler has created the year's list. A non-2xx status extends the year's list by `Item`, the new `File` and the status. A file that exists, before the run or because the run opened it, is skipped without `Replace`. A complete save opens the file and logs nothing. A broken save appends `[Item, File, error]` and opens the file only if `open` succeeded. Every answered request rebinds `File` to the new path, so a later raising request logs that path. No file is opened that existed without `Replace`, and only the year's own entries change |
| Crawl.ProcessGroup | enemd/main.py:248-295 | a planned group first creates its `{root}/{year}/{Tab}/{Title}` directory, then handles its links: the exam link, if requested, is the very next event, and when the group finishes the answer-key link, if requested, follows. A group with neither link only makes its directory. The log only grows under its year, and the only crash is the unbound `File` |
| Crawl.ProcessGroups | enemd/main.py:194-295 | the loop over a year's groups requests no listing page, touches only that year's entries, and never opens an existing file without `Replace`. Groups that all get no plan leave the state unchanged. The loop finishes only if every group was either skipped or planned. A group whose missing href is read ends the run with everything done so far, and its directory is made first only when the failing read is the one at line 252 |
| Crawl.ProcessYear | enemd/main.py:175-212 | a skipped year changes nothing. Otherwise its page is requested first. A raising request ends the run with that request in the trace. A page without the container adds nothing else. A listing with a `div` without a `p` ends the run after its earlier groups. Whether the year finishes or ends the run, only its own entries change and exactly one page request is added. A found container hands its parsed groups to the group loop. The year ends in the state that loop leaves, and it ends the run exactly when the loop does or the listing is broken, with `NoParagraph` when only the listing is at fault |
| Crawl.ProcessYears | enemd/main.py:175-295 | the loop's page requests are exactly the unskipped years, in order. If the run ends part way, they are a prefix of those years. Only their keys change in the log |
| Years.Probes | enemd/main.py:114-117 | the probe requests the current year's page, and the previous year's page only after a non-2xx answer; on success the last year probed is `RangeMax` |
| Crawl.YearMode | enemd/main.py:111-297 | every run's trace opens with the probe requests, and no run opens an existing file without `Replace`. A failed probe aborts with only the probes traced. A completed run has `RangeMax` the current year or the one before, requests the probed pages and then exactly the visited years' pages, and logs only under visited years. An aborted run requested a prefix of those pages |
| Crawl.ExclusiveLoopNeverRequestsListedYears | enemd/main.py:175-182 | under `Type` 2, no listed year's page is requested after the probe, whether the run completes or aborts |
| Crawl.StrictDropLeavesNoTrace | enemd/main.py:211-223 | a group that `Mode` 3 drops because `Prova` or `Gabarito` is missing is handled as if absent: no directory, no request and no log entry |
| Crawl.OtherYearsUntouched | enemd/main.py:265-295 | processing one year, whether it finishes or ends the run, leaves the entries of every other year unchanged |
| Crawl.FilesUnderRoot | enemd/main.py:248-261 | with labels free of `/`, every group directory and file path starts with the download directory's text |

## Left out

- Retry mode (lines 128-173): it re-reads an earlier log and re-fetches its entries. It is I/O-driven, applies no existence or `Replace` check and never writes a log, because the flush sits in the `else` branch.
- The HTTP session, its urllib3 `Retry`/`HTTPAdapter` policy and `Session.get` (lines 49-58, 107-109): foreign network code. Each reply is an input (`Http.Reply`).
- BeautifulSoup parsing and the two-selector lookup of the listing container (line 184): a foreign library. The container's children are given as `Listing.Node`s, and `None` stands for "not found". An anchor's `.string` is reduced to its `text`, and found tags are taken as truthy, as BeautifulSoup's `Tag` is.
- Streaming the body in 16384-byte chunks, `makedirs`, `pathlib.exists` and progress bars (lines 248-249, 274-290): filesystem I/O. A save that completes is a `Saved` event, a save that raises is `Body.Broken`, and existence is an input.
- `pathlib.exists` is modelled as "present before the run, or opened for writing by the run". Files or directories that other processes create or delete meanwhile are not modelled. Paths are compared as strings, without normalising `.` or `..`. Directories that `makedirs` creates, the intermediate ones included, are not counted as existing. A link file whose path equals such a directory (possible only with an empty or `.pdf`-named label) is saved in the model, but skipped by the code.
- Crawl.FilesUnderRoot: states a string prefix, not containment in the directory tree. A `Tab` or `Title` that is `.` or `..` is stripped and free of `/`, so the code accepts it, and a `..` label leads out of the download directory.
- The world is deterministic: the same URL always gets the same reply. The current year's page gets one reply, used both by the probe and by the crawl.
- JSON serialisation of `ErrorLogs` to `ErrorLogs.json` (lines 296-297): a library call. The log value itself is the result of `Crawl.YearMode`.
- Command-line parsing, the directory prompt and its validity check, colours and console output (lines 24-44, 64-90, 120-125): interface glue. The download directory is a parameter. Exceptions raised by `print`, by `makedirs` or by interrupts are not modelled.
- `datetime.now().year` (line 112): the clock is read as `World.now`.
- Path joining follows POSIX `posixpath.join`; the Windows variant is not modelled.

=== FILE: crawl.dfy ===
/** Year mode of `Download` (lines 111-118 and 175-297): the probe fixes
    the year range, each visited year's listing is folded into groups,
    each group is filtered, and each surviving link is fetched, skipped or
    logged. The network, the disk and the clock are inputs (`World`); the
    run's effects are its error log and a trace of what it requested. */
module Crawl {
  import opened Wrappers
  import opened Text
  import opened Http
  import opened Listing
  import opened Selection
  import opened Years
  import opened Downloads

  /** What the run observes of the outside: the current calendar year, the
      reply to each year's listing page (with the listing container's
      children, or `None` when neither selector finds it), the reply to
      each link, and whether a path exists on disk. */
  datatype World = World(
    now: int,
    page: int -> Reply<Option<seq<Node>>>,
    fetch: string -> Reply<Body>,
    present: string -> bool)

  /** The externally visible actions of the run, in order. `Saved(path)`
      is `open(path, "wb")`: the file is created, or truncated and
      rewritten. */
  datatype Event =
    | PageRequested(year: int)
    | DirMade(path: string)
    | LinkRequested(url: string)
    | Saved(path: string)

  /** The variables the year loop carries: `ErrorLogs`, the value last
      bound to `File` (if any), and the trace so far. */
  datatype State = State(log: ErrorLog, file: Option<string>, trace: seq<Event>)

  /** Where the run stands after a step: still running, or stopped by an
      uncaught exception. In both cases `st` holds everything done so far,
      so what a crashing run leaves behind stays visible. */
  datatype Progress = Running(st: State) | Crashed(failure: Failure, st: State)

  /** A `div` child without a `p`: its text is read from `None`. */
  const NoParagraph: Failure := Uncaught("AttributeError: 'NoneType' object has no attribute 'get_text'")

  /** The `except` handler reads `File` before anything assigned it. */
  const UnboundFile: Failure := Uncaught("UnboundLocalError: local variable 'File' referenced before assignment")

  /** `pathlib.join(DownloadDirectory, str(Year), Tab, Title)`. */
  function GroupDir(root: string, year: int, tab: string, title: string): string {
    Join(Join(Join(root, IntToString(year)), tab), title)
  }

  /** `pathlib.join(Path, f"{Item[1]}.pdf")`. */
  function LinkFile(dir: string, kind: string): string {
    Join(dir, kind + ".pdf")
  }

  /** `pathlib.exists(path)` after the events `t`: the file was there
      before the run, or the run has opened it for writing since. */
  predicate Exists(w: World, t: seq<Event>, path: string) {
    w.present(path) || Saved(path) in t
  }

  /** Every list present in `log` is a prefix of its list in `log'`. */
  predicate Grows(log: ErrorLog, log': ErrorLog) {
    forall k :: k in log ==> k in log' && log[k] <= log'[k]
  }

  /** `log'` differs from `log` at most under the keys in `keys`. */
  ghost predicate ConfinedTo(log: ErrorLog, log': ErrorLog, keys: set<string>) {
    forall k :: k !in keys ==> (k in log' <==> k in log) && Entries(log', k) == Entries(log, k)
  }

  /** `t'` extends `t` without further page requests. */
  predicate NoPageAfter(t: seq<Event>, t': seq<Event>) {
    t <= t' && forall i :: |t| <= i < |t'| ==> !t'[i].PageRequested?
  }

  /** `t'` extends `t`, and unless `Replace` is on, every file it opens for
      writing existed neither before the run nor earlier in the trace. */
  predicate SavesAllowed(t: seq<Event>, t': seq<Event>, w: World, replace: bool) {
    t <= t' && forall i :: |t| <= i < |t'| && t'[i].Saved? ==> replace || !Exists(w, t'[..i], t'[i].path)
  }

  /** What a step inside one year may do: grow the log under `keys` only,
      request no listing page, and open no file it may not overwrite. */
  ghost predicate Within(st: State, st': State, keys: set<string>, w: World, replace: bool) {
    && Grows(st.log, st'.log)
    && ConfinedTo(st.log, st'.log, keys)
    && NoPageAfter(st.trace, st'.trace)
    && SavesAllowed(st.trace, st'.trace, w, replace)
  }

  /** One entry of `_Download` (lines 254-295). */
  function ProcessLink(st: State, year: int, dir: string, href: Option<string>, kind: string, w: World, replace: bool): (r: Progress)
    ensures !Requested(href) ==> r == Running(st)
    ensures Within(st, r.st, {IntToString(year)}, w, replace)
    ensures Requested(href) ==> |r.st.trace| > |st.trace| && r.st.trace[|st.trace|] == LinkRequested(href.value)
    ensures r.Crashed? <==> Requested(href) && w.fetch(href.value).Raised? && st.file.None?
    ensures r.Crashed? ==> r.failure == UnboundFile && r.st.trace == st.trace + [LinkRequested(href.value)]
    ensures r.Crashed? ==> r.st.log == AddEntries(st.log, IntToString(year), [])
    ensures Requested(href) && w.fetch(href.value).Answered? ==> r.st.file == Some(LinkFile(dir, kind))
    ensures r.Running? && Requested(href) && w.fetch(href.value).Raised?
            ==> && Entries(r.st.log, IntToString(year))
                   == Entries(st.log, IntToString(year))
                      + [JList([ItemJson(href.value, kind), JStr(st.file.value), JStr(w.fetch(href.value).error)])]
                && r.st.file == st.file
    ensures Requested(href) && w.fetch(href.value).Answered? && !Success(w.fetch(href.value).status)
            ==> && Entries(r.st.log, IntToString(year))
                   == Entries(st.log, IntToString(year))
                      + [ItemJson(href.value, kind), JStr(LinkFile(dir, kind)), JInt(w.fetch(href.value).status)]
                && r.st.file == Some(LinkFile(dir, kind))
    ensures Requested(href) && w.fetch(href.value).Answered? && Success(w.fetch(href.value).status)
            && Exists(w, st.trace, LinkFile(dir, kind)) && !replace
            ==> r.st.log == st.log && r.st.trace == st.trace + [LinkRequested(href.value)]
    ensures Requested(href) && w.fetch(href.value).Answered? && Success(w.fetch(href.value).status)
            && (!Exists(w, st.trace, LinkFile(dir, kind)) || replace) && w.fetch(href.value).body.Complete?
            ==> && r.st.log == st.log
                && r.st.trace == st.trace + [LinkRequested(href.value), Saved(LinkFile(dir, kind))]
    ensures Requested(href) && w.fetch(href.value).Answered? && Success(w.fetch(href.value).status)
            && (!Exists(w, st.trace, LinkFile(dir, kind)) || replace) && w.fetch(href.value).body.Broken?
            ==> && Entries(r.st.log, IntToString(year))
                   == Entries(st.log, IntToString(year))
                      + [JList([ItemJson(href.value, kind), JStr(LinkFile(dir, kind)), JStr(w.fetch(href.value).body.error)])]
                && r.st.file == Some(LinkFile(dir, kind))
                && (Saved(LinkFile(dir, kind)) in r.st.trace[|st.trace|..] <==> w.fetch(href.value).body.fileOpened)
  {
    if !Requested(href) then Running(st)
    else
      var url := href.value;
      var file := LinkFile(dir, kind);
      var reply := w.fetch(url);
      var outcome := Decide(reply, Exists(w, st.trace, file), replace);
      var key := IntToString(year);
      var item := ItemJson(url, kind);
      var requested := st.trace + [LinkRequested(url)];
      assert Saved(file) in requested <==> Saved(file) in st.trace;
      if outcome.GetFailed? then
        if st.file.None? then
          var log := AddEntries(st.log, key, []);
          LinkWithin(st, log, st.file, url, None, key, w, replace);
          Crashed(UnboundFile, State(log, st.file, requested))
        else
          var log := Record(st.log, key, outcome, item, st.file.value);
          LinkWithin(st, log, st.file, url, None, key, w, replace);
          Running(State(log, st.file, requested))
      else
        var saved := outcome.Written? || (outcome.WriteFailed? && reply.body.fileOpened);
        var added := [LinkRequested(url)] + (if saved then [Saved(file)] else []);
        var t := st.trace + added;
        assert t[|st.trace|..] == added && t == requested + (if saved then [Saved(file)] else []);
        var log := Record(st.log, key, outcome, item, file);
        LinkWithin(st, log, Some(file), url, if saved then Some(file) else None, key, w, replace);
        Running(State(log, Some(file), t))
  }

  /** One link's step stays within its year: the log changes only under
      `key` and only grows, and the trace gains the request and at most one
      file opened that it may open. */
  lemma LinkWithin(st: State, log: ErrorLog, file: Option<string>, url: string, saved: Option<string>,
                   key: string, w: World, replace: bool)
    requires forall k :: k in st.log ==> k in log && Entries(st.log, k) <= Entries(log, k)
    requires forall k :: k != key ==> (k in log <==> k in st.log) && Entries(log, k) == Entries(st.log, k)
    requires saved.Some? ==> replace || !Exists(w, st.trace, saved.value)
    ensures Within(st, State(log, file, st.trace + [LinkRequested(url)] + (if saved.Some? then [Saved(saved.value)] else [])),
                   {key}, w, replace)
  {
    var t := st.trace + [LinkRequested(url)] + (if saved.Some? then [Saved(saved.value)] else []);
    if saved.Some? {
      assert t[..|st.trace| + 1] == st.trace + [LinkRequested(url)];
    }
  }

  lemma WithinCompose(a: State, b: State, c: State, keys: set<string>, w: World, replace: bool)
    requires Within(a, b, keys, w, replace) && Within(b, c, keys, w, replace)
    ensures Within(a, c, keys, w, replace)
  {
    GrowsCompose(a.log, b.log, c.log);
    ConfinedCompose(a.log, b.log, c.log, keys, keys);
    assert keys + keys == keys;
    NoPageCompose(a.trace, b.trace, c.trace);
    SavesCompose(a.trace, b.trace, c.trace, w, replace);
  }

  /** Making a directory stays within a year. */
  lemma DirWithin(st: State, path: string, keys: set<string>, w: World, replace: bool)
    ensures Within(st, st.(trace := st.trace + [DirMade(path)]), keys, w, replace)
  {
  }

  /** One planned group: its directory is created, then the exam and the
      answer key are handled in that order; a crash on the exam leaves the
      answer key untouched. */
  function ProcessGroup(st: State, year: int, root: string, plan: Planned, w: World, replace: bool): (r: Progress)
    ensures Within(st, r.st, {IntToString(year)}, w, replace)
    ensures |r.st.trace| > |st.trace| && r.st.trace[|st.trace|] == DirMade(GroupDir(root, year, plan.tab, plan.title))
    ensures r.Crashed? ==> r.failure == UnboundFile
    ensures Requested(plan.exam)
            ==> |r.st.trace| > |st.trace| + 1 && r.st.trace[|st.trace| + 1] == LinkRequested(plan.exam.value)
    ensures r.Running? && Requested(plan.answers) ==> LinkRequested(plan.answers.value) in r.st.trace[|st.trace| + 1..]
    ensures !Requested(plan.exam) && !Requested(plan.answers)
            ==> r == Running(st.(trace := st.trace + [DirMade(GroupDir(root, year, plan.tab, plan.title))]))
  {
    var dir := GroupDir(root, year, plan.tab, plan.title);
    var st1 := st.(trace := st.trace + [DirMade(dir)]);
    var keys := {IntToString(year)};
    var r1 := ProcessLink(st1, year, dir, plan.exam, "Exam", w, replace);
    var r := if r1.Crashed? then r1 else ProcessLink(r1.st, year, dir, plan.answers, "Answers", w, replace);
    DirWithin(st, dir, keys, w, replace);
    WithinCompose(st, st1, r1.st, keys, w, replace);
    if r1.Crashed? then
      assert r.st.trace[|st.trace|] == st1.trace[|st.trace|];
      r
    else
      WithinCompose(st, r1.st, r.st, keys, w, replace);
      assert r.st.trace[|st.trace|] == st1.trace[|st.trace|];
      assert Requested(plan.exam) ==> r.st.trace[|st.trace| + 1] == r1.st.trace[|st1.trace|];
      if Requested(plan.answers) then
        InSuffix(r.st.trace, |st.trace| + 1, |r1.st.trace|);
        r
      else r
  }

  /** An element at index `j >= k` lies in the suffix from `k`. */
  lemma InSuffix(t: seq<Event>, k: nat, j: nat)
    requires k <= j < |t|
    ensures t[j] in t[k..]
  {
    assert t[k..][j - k] == t[j];
  }

  lemma NoPageCompose(a: seq<Event>, b: seq<Event>, c: seq<Event>)
    requires NoPageAfter(a, b) && NoPageAfter(b, c)
    ensures NoPageAfter(a, c)
  {
    forall i | |a| <= i < |c| ensures !c[i].PageRequested? {
      if i < |b| {
        assert c[i] == b[i];
      }
    }
  }

  /** The loop over one year's groups. A group whose href read fails at
      line 252 has already had its directory made at line 249; one that
      fails in the link filter (lines 228 and 232) has not. */
  function ProcessGroups(st: State, spec: Filters, year: int, root: string, groups: seq<Group>, w: World, replace: bool): (r: Progress)
    ensures Within(st, r.st, {IntToString(year)}, w, replace)
    ensures |groups| == 0 ==> r == Running(st)
    ensures |groups| > 0 && Select(spec, groups[0]).Fail?
            ==> r == Crashed(Select(spec, groups[0]).failure,
                             if ReachesDownloads(spec, groups[0])
                             then st.(trace := st.trace + [DirMade(GroupDir(root, year, groups[0].tab, groups[0].title))])
                             else st)
    ensures (forall i :: 0 <= i < |groups| ==> Select(spec, groups[i]) == Ok(None)) ==> r == Running(st)
    ensures r.Running? ==> forall i :: 0 <= i < |groups| ==> Select(spec, groups[i]).Ok?
    decreases |groups|
  {
    var keys := {IntToString(year)};
    if |groups| == 0 then Running(st)
    else match Select(spec, groups[0])
      case Fail(f) =>
        if ReachesDownloads(spec, groups[0]) then
          var dir := GroupDir(root, year, groups[0].tab, groups[0].title);
          DirWithin(st, dir, keys, w, replace);
          Crashed(f, st.(trace := st.trace + [DirMade(dir)]))
        else Crashed(f, st)
      case Ok(None) =>
        assert forall i :: 0 <= i < |groups| - 1 ==> groups[1..][i] == groups[i + 1];
        ProcessGroups(st, spec, year, root, groups[1..], w, replace)
      case Ok(Some(plan)) =>
        var r1 := ProcessGroup(st, year, root, plan, w, replace);
        if r1.Crashed? then r1
        else
          var r := ProcessGroups(r1.st, spec, year, root, groups[1..], w, replace);
          WithinCompose(st, r1.st, r.st, keys, w, replace);
          assert forall i :: 0 <= i < |groups| - 1 ==> groups[1..][i] == groups[i + 1];
          r
  }

  /** The years whose page requests appear in a trace, in order. */
  function Pages(t: seq<Event>): seq<int>
    decreases |t|
  {
    if |t| == 0 then []
    else Pages(t[..|t| - 1]) + (if t[|t| - 1].PageRequested? then [t[|t| - 1].year] else [])
  }

  lemma {:induction false} PagesAppend(a: seq<Event>, b: seq<Event>)
    ensures Pages(a + b) == Pages(a) + Pages(b)
    decreases |b|
  {
    if |b| == 0 {
      assert a + b == a;
    } else {
      PagesAppend(a, b[..|b| - 1]);
      assert (a + b)[..|a + b| - 1] == a + b[..|b| - 1];
    }
  }

  lemma {:induction false} PagesNone(t: seq<Event>)
    requires forall i :: 0 <= i < |t| ==> !t[i].PageRequested?
    ensures Pages(t) == []
    decreases |t|
  {
    if |t| > 0 {
      PagesNone(t[..|t| - 1]);
    }
  }

  lemma PagesUnchanged(t: seq<Event>, t': seq<Event>)
    requires NoPageAfter(t, t')
    ensures Pages(t') == Pages(t)
  {
    var extra := t'[|t|..];
    assert t' == t + extra;
    PagesAppend(t, extra);
    PagesNone(extra);
  }

  /** One turn of the year loop (lines 175-252). A year that is not
      skipped has its page requested first; everything after stays inside
      the year's own log list. */
  function ProcessYear(st: State, spec: Filters, year: int, root: string, w: World, replace: bool): (r: Progress)
    ensures SkipsYear(spec.typeMode, spec.years, year) ==> r == Running(st)
    ensures !SkipsYear(spec.typeMode, spec.years, year)
            ==> |r.st.trace| > |st.trace| && r.st.trace[|st.trace|] == PageRequested(year)
    ensures !SkipsYear(spec.typeMode, spec.years, year) && w.page(year).Raised?
            ==> r == Crashed(Uncaught(w.page(year).error), st.(trace := st.trace + [PageRequested(year)]))
    ensures !SkipsYear(spec.typeMode, spec.years, year) && w.page(year).Answered? && w.page(year).body.None?
            ==> r == Running(st.(trace := st.trace + [PageRequested(year)]))
    ensures !SkipsYear(spec.typeMode, spec.years, year) && w.page(year).Answered? && w.page(year).body.Some?
            && Parse(w.page(year).body.value).broken
            ==> r.Crashed?
    ensures !SkipsYear(spec.typeMode, spec.years, year) && w.page(year).Answered? && w.page(year).body.Some?
            ==> var listing := Parse(w.page(year).body.value);
                var g := ProcessGroups(st.(trace := st.trace + [PageRequested(year)]), spec, year, root, listing.groups, w, replace);
                && r.st == g.st
                && (r.Crashed? <==> g.Crashed? || listing.broken)
                && (g.Crashed? ==> r.failure == g.failure)
                && (g.Running? && listing.broken ==> r.failure == NoParagraph)
    ensures Grows(st.log, r.st.log)
    ensures ConfinedTo(st.log, r.st.log, OwnKey(spec, year))
    ensures SavesAllowed(st.trace, r.st.trace, w, replace)
    ensures Pages(r.st.trace) == Pages(st.trace) + (if SkipsYear(spec.typeMode, spec.years, year) then [] else [year])
  {
    if SkipsYear(spec.typeMode, spec.years, year) then Running(st)
    else
      var st1 := st.(trace := st.trace + [PageRequested(year)]);
      PagesAppend(st.trace, [PageRequested(year)]);
      assert Pages([PageRequested(year)]) == [year];
      match w.page(year)
      case Raised(e) => Crashed(Uncaught(e), st1)
      case Answered(_, None) => Running(st1)
      case Answered(_, Some(cs)) =>
        var listing := Parse(cs);
        var r := ProcessGroups(st1, spec, year, root, listing.groups, w, replace);
        PagesUnchanged(st1.trace, r.st.trace);
        assert r.st.trace[|st.trace|] == st1.trace[|st.trace|];
        if r.Crashed? then r
        else if listing.broken then Crashed(NoParagraph, r.st)
        else r
  }

  /** The keys `str(Year)` of the given years. */
  function YearKeys(years: seq<int>): set<string> {
    set y | y in years :: IntToString(y)
  }

  /** The year loop over `loop`. A crash stops it: the pages requested
      are then a prefix of those a full loop would request. */
  function ProcessYears(st: State, spec: Filters, loop: seq<int>, root: string, w: World, replace: bool): (r: Progress)
    ensures Grows(st.log, r.st.log)
    ensures ConfinedTo(st.log, r.st.log, YearKeys(Fetched(spec.typeMode, spec.years, loop)))
    ensures SavesAllowed(st.trace, r.st.trace, w, replace)
    ensures Pages(r.st.trace) <= Pages(st.trace) + Fetched(spec.typeMode, spec.years, loop)
    ensures r.Running? ==> Pages(r.st.trace) == Pages(st.trace) + Fetched(spec.typeMode, spec.years, loop)
    decreases |loop|
  {
    if |loop| == 0 then Running(st)
    else
      var r1 := ProcessYear(st, spec, loop[0], root, w, replace);
      var r := if r1.Crashed? then r1 else ProcessYears(r1.st, spec, loop[1..], root, w, replace);
      if r1.Crashed? then
        YearsCompose(st, r1.st, r1.st, spec, loop, w, replace);
        r
      else
        YearsCompose(st, r1.st, r.st, spec, loop, w, replace);
        r
  }

  lemma GrowsCompose(a: ErrorLog, b: ErrorLog, c: ErrorLog)
    requires Grows(a, b) && Grows(b, c)
    ensures Grows(a, c)
  {
    forall k | k in a ensures k in c && a[k] <= c[k] {
      assert b[k] <= c[k];
    }
  }

  lemma ConfinedCompose(a: ErrorLog, b: ErrorLog, c: ErrorLog, ka: set<string>, kb: set<string>)
    requires ConfinedTo(a, b, ka) && ConfinedTo(b, c, kb)
    ensures ConfinedTo(a, c, ka + kb)
  {
    forall k | k !in ka + kb ensures (k in c <==> k in a) && Entries(c, k) == Entries(a, k) {
      assert k !in ka && k !in kb;
    }
  }

  lemma SavesCompose(a: seq<Event>, b: seq<Event>, c: seq<Event>, w: World, replace: bool)
    requires SavesAllowed(a, b, w, replace) && SavesAllowed(b, c, w, replace)
    ensures SavesAllowed(a, c, w, replace)
  {
    forall i | |a| <= i < |c| && c[i].Saved? ensures replace || !Exists(w, c[..i], c[i].path) {
      if i < |b| {
        assert c[i] == b[i] && c[..i] == b[..i];
      }
    }
  }

  /** The keys of a loop's fetched years split into its head's and its tail's. */
  lemma FetchedKeysCons(spec: Filters, loop: seq<int>)
    requires |loop| > 0
    ensures YearKeys(Fetched(spec.typeMode, spec.years, loop))
            == (if SkipsYear(spec.typeMode, spec.years, loop[0]) then {} else {IntToString(loop[0])})
               + YearKeys(Fetched(spec.typeMode, spec.years, loop[1..]))
  {
    var head := if SkipsYear(spec.typeMode, spec.years, loop[0]) then [] else [loop[0]];
    var tail := Fetched(spec.typeMode, spec.years, loop[1..]);
    assert Fetched(spec.typeMode, spec.years, loop) == head + tail;
    forall y ensures y in head + tail <==> y in head || y in tail { }
  }

  /** The keys a single year may change. */
  function OwnKey(spec: Filters, year: int): set<string> {
    if SkipsYear(spec.typeMode, spec.years, year) then {} else {IntToString(year)}
  }

  /** The fetched years of a loop are its head's, then its tail's. */
  lemma FetchedCons(spec: Filters, loop: seq<int>)
    requires |loop| > 0
    ensures Fetched(spec.typeMode, spec.years, loop)
            == (if SkipsYear(spec.typeMode, spec.years, loop[0]) then [] else [loop[0]])
               + Fetched(spec.typeMode, spec.years, loop[1..])
  {
  }

  lemma ConcatAssoc(a: seq<int>, b: seq<int>, c: seq<int>)
    ensures a + b + c == a + (b + c)
  {
  }

  /** One year followed by (part of) the rest of the loop meets the loop's
      contract. */
  lemma YearsCompose(st: State, st': State, st'': State, spec: Filters, loop: seq<int>, w: World, replace: bool)
    requires |loop| > 0
    requires Grows(st.log, st'.log) && Grows(st'.log, st''.log)
    requires ConfinedTo(st.log, st'.log, OwnKey(spec, loop[0]))
    requires ConfinedTo(st'.log, st''.log, YearKeys(Fetched(spec.typeMode, spec.years, loop[1..])))
    requires SavesAllowed(st.trace, st'.trace, w, replace) && SavesAllowed(st'.trace, st''.trace, w, replace)
    requires Pages(st'.trace) == Pages(st.trace) + (if SkipsYear(spec.typeMode, spec.years, loop[0]) then [] else [loop[0]])
    requires Pages(st''.trace) <= Pages(st'.trace) + Fetched(spec.typeMode, spec.years, loop[1..])
    ensures Grows(st.log, st''.log)
    ensures ConfinedTo(st.log, st''.log, YearKeys(Fetched(spec.typeMode, spec.years, loop)))
    ensures SavesAllowed(st.trace, st''.trace, w, replace)
    ensures Pages(st''.trace) <= Pages(st.trace) + Fetched(spec.typeMode, spec.years, loop)
    ensures Pages(st''.trace) == Pages(st'.trace) + Fetched(spec.typeMode, spec.years, loop[1..])
            ==> Pages(st''.trace) == Pages(st.trace) + Fetched(spec.typeMode, spec.years, loop)
  {
    GrowsCompose(st.log, st'.log, st''.log);
    var tailKeys := YearKeys(Fetched(spec.typeMode, spec.years, loop[1..]));
    ConfinedCompose(st.log, st'.log, st''.log, OwnKey(spec, loop[0]), tailKeys);
    FetchedKeysCons(spec, loop);
    assert OwnKey(spec, loop[0]) + tailKeys == YearKeys(Fetched(spec.typeMode, spec.years, loop));
    SavesCompose(st.trace, st'.trace, st''.trace, w, replace);
    FetchedCons(spec, loop);
    ConcatAssoc(Pages(st.trace), if SkipsYear(spec.typeMode, spec.years, loop[0]) then [] else [loop[0]],
                Fetched(spec.typeMode, spec.years, loop[1..]));
  }

  /** What a year-mode run leaves: a completed run has written its error
      log to `ErrorLogs.json`; an aborted one stops with its failure before
      that, and only its trace remains. */
  datatype Run =
    | Completed(rangeMax: int, log: ErrorLog, trace: seq<Event>)
    | Aborted(failure: Failure, trace: seq<Event>)

  /** The page requests for the given years, in order. */
  function Requests(years: seq<int>): (t: seq<Event>)
    ensures |t| == |years|
    ensures forall i :: 0 <= i < |t| ==> t[i] == PageRequested(years[i])
  {
    seq(|years|, i requires 0 <= i < |years| => PageRequested(years[i]))
  }

  lemma {:induction false} PagesOfRequests(years: seq<int>)
    ensures Pages(Requests(years)) == years
    decreases |years|
  {
    if |years| > 0 {
      var t := Requests(years);
      var front := years[..|years| - 1];
      assert t[..|t| - 1] == Requests(front);
      PagesOfRequests(front);
      assert years == front + [years[|years| - 1]];
    }
  }

  /** A year-mode run: the probe, then the year loop from `RangeMin`
      (1998) to the probed `RangeMax`. The probe's page requests open the
      trace whatever happens next. */
  function YearMode(spec: Filters, root: string, replace: bool, w: World): (r: Run)
    ensures Requests(Probes(w.now, w.page)) <= r.trace
    ensures SavesAllowed([], r.trace, w, replace)
    ensures RangeMax(w.now, w.page).Fail?
            ==> r == Aborted(RangeMax(w.now, w.page).failure, Requests(Probes(w.now, w.page)))
    ensures r.Completed? ==> && RangeMax(w.now, w.page) == Ok(r.rangeMax)
                             && (r.rangeMax == w.now || r.rangeMax == w.now - 1)
    ensures r.Completed?
            ==> Pages(r.trace) == Probes(w.now, w.page) + VisitedYears(spec.typeMode, spec.years, r.rangeMax)
    ensures r.Completed? ==> r.log.Keys <= YearKeys(VisitedYears(spec.typeMode, spec.years, r.rangeMax))
    ensures r.Aborted? && RangeMax(w.now, w.page).Ok?
            ==> Pages(r.trace) <= Probes(w.now, w.page) + VisitedYears(spec.typeMode, spec.years, RangeMax(w.now, w.page).value)
  {
    var probes := Requests(Probes(w.now, w.page));
    assert SavesAllowed([], probes, w, replace);
    match RangeMax(w.now, w.page)
    case Fail(f) => Aborted(f, probes)
    case Ok(rangeMax) =>
      var loop := LoopYears(spec.typeMode, spec.years, rangeMax);
      var r := ProcessYears(State(map[], None, probes), spec, loop, root, w, replace);
      LoopFromProbes(Probes(w.now, w.page), spec, loop, root, w, replace);
      match r
      case Crashed(f, st) => Aborted(f, st.trace)
      case Running(st) => Completed(rangeMax, st.log, st.trace)
  }

  /** The year loop run after the probes, from an empty log: what the
      whole run's contract needs of it. */
  lemma LoopFromProbes(probed: seq<int>, spec: Filters, loop: seq<int>, root: string, w: World, replace: bool)
    ensures var probes := Requests(probed);
            var r := ProcessYears(State(map[], None, probes), spec, loop, root, w, replace);
            && probes <= r.st.trace
            && SavesAllowed([], r.st.trace, w, replace)
            && r.st.log.Keys <= YearKeys(Fetched(spec.typeMode, spec.years, loop))
            && Pages(r.st.trace) <= probed + Fetched(spec.typeMode, spec.years, loop)
            && (r.Running? ==> Pages(r.st.trace) == probed + Fetched(spec.typeMode, spec.years, loop))
  {
    var probes := Requests(probed);
    var r := ProcessYears(State(map[], None, probes), spec, loop, root, w, replace);
    PagesOfRequests(probed);
    assert SavesAllowed([], probes, w, replace);
    SavesCompose([], probes, r.st.trace, w, replace);
    forall k | k in r.st.log ensures k in YearKeys(Fetched(spec.typeMode, spec.years, loop)) {
    }
  }

  lemma {:induction false} PagesMembership(t: seq<Event>, y: int)
    ensures y in Pages(t) <==> PageRequested(y) in t
    decreases |t|
  {
    if |t| > 0 {
      PagesMembership(t[..|t| - 1], y);
      assert t == t[..|t| - 1] + [t[|t| - 1]];
    }
  }

  /** Under `Type` 2 the year loop never requests the page of a listed
      year, whether the run completes or aborts; only the probe of lines
      115-117 may ask for one. */
  lemma ExclusiveLoopNeverRequestsListedYears(spec: Filters, root: string, replace: bool, w: World)
    requires spec.typeMode == 2
    ensures var r := YearMode(spec, root, replace, w);
            forall y :: y in spec.years ==> PageRequested(y) !in r.trace[|Probes(w.now, w.page)|..]
  {
    var r := YearMode(spec, root, replace, w);
    var probes := Probes(w.now, w.page);
    if RangeMax(w.now, w.page).Ok? {
      var visited := VisitedYears(spec.typeMode, spec.years, RangeMax(w.now, w.page).value);
      ExclusiveSkipsListedYears(spec.years, RangeMax(w.now, w.page).value);
      LoopAvoids(r.trace, probes, visited, spec.years);
    } else {
      assert r.trace[|probes|..] == [];
    }
  }

  /** A trace that opens with the probes and requests no more pages than
      the probes and then `visited` requests none of `years` after the
      probes, when `visited` holds none of them. */
  lemma LoopAvoids(trace: seq<Event>, probes: seq<int>, visited: seq<int>, years: seq<int>)
    requires Requests(probes) <= trace
    requires Pages(trace) <= probes + visited
    requires forall y :: y in years ==> y !in visited
    ensures forall y :: y in years ==> PageRequested(y) !in trace[|probes|..]
  {
    var t := trace[|probes|..];
    assert trace == Requests(probes) + t;
    PagesAppend(Requests(probes), t);
    PagesOfRequests(probes);
    PrefixCancel(probes, Pages(t), visited);
    forall y | y in years ensures PageRequested(y) !in t {
      PagesMembership(t, y);
    }
  }

  /** Removing a common head keeps the prefix order. */
  lemma PrefixCancel(a: seq<int>, b: seq<int>, c: seq<int>)
    requires a + b <= a + c
    ensures b <= c
  {
    assert forall i :: 0 <= i < |b| ==> b[i] == (a + b)[|a| + i] == (a + c)[|a| + i] == c[i];
  }

  /** A group that strict mode drops leaves no trace: the loop runs on as if
      the group were not in the listing, with no directory, no request and
      no log entry for it. */
  lemma StrictDropLeavesNoTrace(st: State, spec: Filters, year: int, root: string, g: Group, rest: seq<Group>, w: World, replace: bool)
    requires spec.mode == 3
    requires !(FindAnchor(g.anchors, "Prova").Some? && FindAnchor(g.anchors, "Gabarito").Some?)
    ensures ProcessGroups(st, spec, year, root, [g] + rest, w, replace) == ProcessGroups(st, spec, year, root, rest, w, replace)
  {
    SkippedIffStrictAndIncomplete(spec, g);
    assert ([g] + rest)[0] == g && ([g] + rest)[1..] == rest;
  }

  /** Processing one year, whether it finishes or crashes, leaves the
      entries of every other year as they were. */
  lemma OtherYearsUntouched(st: State, spec: Filters, year: int, other: int, root: string, w: World, replace: bool)
    requires other != year
    ensures Entries(ProcessYear(st, spec, year, root, w, replace).st.log, IntToString(other))
            == Entries(st.log, IntToString(other))
  {
    if IntToString(other) == IntToString(year) {
      IntToStringInjective(other, year);
    }
  }

  lemma NoSlashInYear(year: int)
    ensures '/' !in IntToString(year)
  {
    var digits := NatToString(if year < 0 then -year else year);
    assert forall i :: 0 <= i < |digits| ==> digits[i] != '/';
    if year < 0 {
      assert IntToString(year) == "-" + digits;
    }
  }

  /** With labels free of `/`, a group's directory and its files start with
      the download directory's text. */
  lemma FilesUnderRoot(root: string, year: int, tab: string, title: string, kind: string)
    requires '/' !in tab && '/' !in title && '/' !in kind
    ensures root <= GroupDir(root, year, tab, title)
    ensures root <= LinkFile(GroupDir(root, year, tab, title), kind)
  {
    NoSlashInYear(year);
    var a := Join(root, IntToString(year));
    JoinExtends(root, IntToString(year));
    var b := Join(a, tab);
    JoinExtends(a, tab);
    JoinExtends(b, title);
    var dir := GroupDir(root, year, tab, title);
    assert '/' !in kind + ".pdf";
    JoinExtends(dir, kind + ".pdf");
  }
}

=== FILE: downloads.dfy ===
/** The fate of one link in year mode (lines 254-295): whether it is
    requested at all, whether the reply is a failure, a skip or a write,
    and what the failure adds to the error log. */
module Downloads {
  import opened Wrappers
  import opened Text
  import opened Http

  /** The JSON values the error log holds. */
  datatype Json = JStr(s: string) | JInt(n: int) | JList(items: seq<Json>)

  /** `ErrorLogs`: `str(Year)` to the list of failure entries of that year. */
  type ErrorLog = map<string, seq<Json>>

  /** What happens once a 2xx response is being saved: the body is
      streamed to the file to the end, or something raises on the way.
      `fileOpened` tells whether `open(File, "wb")` had already created or
      truncated the file when it raised (a broken stream) or not (header
      parsing, the `open` itself). */
  datatype Body = Complete | Broken(error: string, fileOpened: bool)

  datatype Outcome =
    /** `Session.get` raised. */
    | GetFailed(error: string)
    /** The status was not 2xx. */
    | HttpFailed(status: int)
    /** The file exists and `Replace` is off: nothing is written. */
    | Skipped
    /** The file was written. */
    | Written
    /** Saving the body raised. */
    | WriteFailed(error: string)

  /** A link is requested only when it is present and non-empty
      (`if not Item[0]` excludes `None` and `""`). */
  predicate Requested(href: Option<string>) {
    href.Some? && href.value != ""
  }

  /** The decision for a requested link, from the reply, whether the
      destination file exists, and `Replace`. */
  function Decide(reply: Reply<Body>, present: bool, replace: bool): (r: Outcome)
    ensures r.GetFailed? <==> reply.Raised?
    ensures r.HttpFailed? <==> reply.Answered? && !Success(reply.status)
    ensures r == Skipped <==> reply.Answered? && Success(reply.status) && present && !replace
    ensures r == Written
            <==> reply.Answered? && Success(reply.status) && (!present || replace) && reply.body.Complete?
    ensures r.WriteFailed?
            <==> reply.Answered? && Success(reply.status) && (!present || replace) && reply.body.Broken?
    ensures r.GetFailed? ==> r.error == reply.error
    ensures r.HttpFailed? ==> r.status == reply.status
    ensures r.WriteFailed? ==> r.error == reply.body.error
  {
    match reply
    case Raised(e) => GetFailed(e)
    case Answered(status, body) =>
      if !Success(status) then HttpFailed(status)
      else if present && !replace then Skipped
      else match body
        case Complete => Written
        case Broken(e, _) => WriteFailed(e)
  }

  /** A non-2xx status is a failure whether or not the file exists, and is
      never turned into a skip by an existing file. */
  lemma StatusBeforeExistence(status: int, body: Body, replace: bool)
    requires !Success(status)
    ensures Decide(Answered(status, body), true, replace) == HttpFailed(status)
    ensures Decide(Answered(status, body), false, replace) == HttpFailed(status)
  {
  }

  /** `[link, kind]`, the `Item` of the download loop. */
  function ItemJson(href: string, kind: string): Json {
    JList([JStr(href), JStr(kind)])
  }

  /** `ErrorLogs[key]`, or the empty list when the key is absent. */
  function Entries(log: ErrorLog, key: string): seq<Json> {
    if key in log then log[key] else []
  }

  /** Adds `items` at the end of the list under `key`, creating it when
      absent. */
  function AddEntries(log: ErrorLog, key: string, items: seq<Json>): (r: ErrorLog)
    ensures r.Keys == log.Keys + {key}
    ensures r[key] == Entries(log, key) + items
    ensures forall k :: k in log && k != key ==> r[k] == log[k]
  {
    log[key := Entries(log, key) + items]
  }

  /** What a failure adds to the year's list: a failed request or a failed
      save appends one `[Item, File, repr(E)]` record (line 295); a non-2xx
      status extends the list by three separate values `Item`, `File`,
      `status` (line 267). Other outcomes add nothing. */
  function FailureEntries(outcome: Outcome, item: Json, file: string): (r: seq<Json>)
    ensures outcome.GetFailed? || outcome.WriteFailed? ==> |r| == 1
    ensures outcome.HttpFailed? ==> |r| == 3
    ensures outcome.Skipped? || outcome.Written? ==> r == []
  {
    match outcome
    case GetFailed(e) => [JList([item, JStr(file), JStr(e)])]
    case WriteFailed(e) => [JList([item, JStr(file), JStr(e)])]
    case HttpFailed(status) => [item, JStr(file), JInt(status)]
    case _ => []
  }

  /** The log after one outcome: only the year's own list changes, and it
      only grows. */
  function Record(log: ErrorLog, key: string, outcome: Outcome, item: Json, file: string): (r: ErrorLog)
    ensures forall k :: k in log ==> k in r && Entries(log, k) <= Entries(r, k)
    ensures forall k :: k != key ==> (k in r <==> k in log) && Entries(r, k) == Entries(log, k)
    ensures outcome.Skipped? || outcome.Written? ==> r == log
    ensures Entries(r, key) == Entries(log, key) + FailureEntries(outcome, item, file)
  {
    var items := FailureEntries(outcome, item, file);
    if items == [] then log else AddEntries(log, key, items)
  }

  /** A list the retry mode can read back: every entry is a three-element
      `[Item, File, cause]` record with a `[link, kind]` item. */
  predicate IsRecord(j: Json) {
    && j.JList? && |j.items| == 3
    && j.items[0].JList? && |j.items[0].items| == 2
    && j.items[0].items[0].JStr? && j.items[0].items[1].JStr?
    && j.items[1].JStr?
  }

  predicate ReadableAsManifest(log: ErrorLog) {
    forall k :: k in log ==> forall j :: j in log[k] ==> IsRecord(j)
  }

  /** Exception failures keep the log readable as a retry manifest. */
  lemma ExceptionKeepsManifest(log: ErrorLog, key: string, outcome: Outcome, href: string, kind: string, file: string)
    requires ReadableAsManifest(log)
    requires !outcome.HttpFailed?
    ensures ReadableAsManifest(Record(log, key, outcome, ItemJson(href, kind), file))
  {
    var r := Record(log, key, outcome, ItemJson(href, kind), file);
    forall k | k in r ensures forall j :: j in r[k] ==> IsRecord(j) {
      if k == key && !(outcome.Skipped? || outcome.Written?) {
        assert r[k] == Entries(log, k) + FailureEntries(outcome, ItemJson(href, kind), file);
      }
    }
  }

  /** An HTTP failure, because of `.extend`, leaves entries that are not
      records, so the log is no longer a valid retry manifest. */
  lemma HttpFailureBreaksManifest(log: ErrorLog, key: string, status: int, href: string, kind: string, file: string)
    ensures !ReadableAsManifest(Record(log, key, HttpFailed(status), ItemJson(href, kind), file))
  {
    var r := Record(log, key, HttpFailed(status), ItemJson(href, kind), file);
    var e := Entries(log, key);
    assert r[key] == e + [ItemJson(href, kind), JStr(file), JInt(status)];
    assert r[key][|e| + 1] == JStr(file);
    assert !IsRecord(JStr(file));
  }

  /** `posixpath.join(a, b)`: an absolute `b` replaces `a`; otherwise a
      separator is inserted unless `a` is empty or already ends in one. */
  function Join(a: string, b: string): string {
    if |b| > 0 && b[0] == '/' then b
    else if |a| == 0 || a[|a| - 1] == '/' then a + b
    else a + "/" + b
  }

  /** A segment without `/` is appended below `a`, never replacing it. */
  lemma JoinExtends(a: string, b: string)
    requires '/' !in b
    ensures a <= Join(a, b)
    ensures '/' !in a ==> Join(a, b) == a + "/" + b || |a| == 0
  {
    if |b| > 0 {
      assert b[0] in b;
    }
  }
}

=== FILE: http.dfy ===
/** What the crawler sees of one `Session.get` call. The transport (retry
    policy, connection pool) is outside the model: a reply is an input. */
module Http {

  /** Either the call raised (its `repr`), or a response arrived with a
      status code and a body of type `B`. */
  datatype Reply<B> = Raised(error: string) | Answered(status: int, body: B)

  /** `200 <= status_code < 300`. */
  predicate Success(status: int) {
    200 <= status < 300
  }
}

=== FILE: listing.dfy ===
/** The per-year listing fold: the children of the listing container are
    visited in document order while a sticky category label (`Tab`) and a
    sticky title label (`Title`) are carried along, and every `ul` child
    emits one group of links under the labels current at that point. */
module Listing {
  import opened Wrappers
  import opened Text

  /** An `<a>` tag inside a `ul`: its `.string` (empty when the tag has no
      single text child) and its `href` attribute, if it has one. */
  datatype Anchor = Anchor(text: string, href: Option<string>)

  /** A direct child of the listing container. */
  datatype Node =
    /** A text node or comment; the fold skips it. */
    | NonTag
    /** An element: its tag name, its descendant text nodes in document
        order, the text nodes of its first descendant `p` (if any), and its
        descendant `a` tags in document order. */
    | Tag(name: string, strings: seq<string>, firstP: Option<seq<string>>, anchors: seq<Anchor>)

  /** The placeholder label used until a heading or title has been seen. */
  const Undefined: string := "Undefined"

  /** The sticky state of the fold. */
  datatype Labels = Labels(tab: string, title: string)

  const Start: Labels := Labels(Undefined, Undefined)

  /** One `ul` child, with the labels current when it was reached. */
  datatype Group = Group(tab: string, title: string, anchors: seq<Anchor>)

  /** How a child is used by the fold. */
  datatype Kind =
    | Heading(text: string)
    | Caption(text: string)
    | List(anchors: seq<Anchor>)
    /** A `div` without a `p`: `Item.find("p")` is `None`, and reading its
        text raises `AttributeError`, which ends the run. */
    | Unreadable
    | Ignored

  /** A label as it is used for a directory name: the stripped text with
      every `/` turned into `-`. */
  function Label(strings: seq<string>): string
  {
    Replace(GetText(strings), "/", "-")
  }

  /** A label never contains `/` and neither starts nor ends with
      whitespace. */
  lemma LabelClean(strings: seq<string>)
    ensures '/' !in Label(strings)
    ensures Trimmed(Label(strings))
  {
    var text := GetText(strings);
    ReplaceSingleChar(text, '/', '-');
    MapCharKeepsTrimmed(text, '/', '-');
  }

  lemma MapCharKeepsTrimmed(s: string, a: char, b: char)
    requires Trimmed(s) && !IsSpace(b)
    ensures Trimmed(MapChar(s, a, b))
  {
  }

  /** The classification of one child: any tag name containing `h` is a
      heading; `p` and `div` are titles; `ul` is a list of links; anything
      else is ignored. */
  function Classify(n: Node): (k: Kind)
  {
    match n
    case NonTag => Ignored
    case Tag(name, strings, firstP, anchors) =>
      if Contains(name, "h") then Heading(Label(strings))
      else if name == "p" then Caption(Label(strings))
      else if name == "div" then (if firstP.Some? then Caption(Label(firstP.value)) else Unreadable)
      else if name == "ul" then List(anchors)
      else Ignored
  }

  /** The classification of every child, in document order. */
  function Kinds(cs: seq<Node>): (ks: seq<Kind>)
    ensures |ks| == |cs|
    ensures forall i :: 0 <= i < |cs| ==> ks[i] == Classify(cs[i])
    decreases |cs|
  {
    if |cs| == 0 then [] else [Classify(cs[0])] + Kinds(cs[1..])
  }

  /** The label update a classified child causes. */
  function Step(st: Labels, k: Kind): Labels {
    match k
    case Heading(t) => st.(tab := t)
    case Caption(t) => st.(title := t)
    case _ => st
  }

  /** The group a classified child emits: one for a list, none otherwise. */
  function Emit(st: Labels, k: Kind): seq<Group> {
    match k
    case List(anchors) => [Group(st.tab, st.title, anchors)]
    case _ => []
  }

  /** The loop over `Page.children`, carrying the labels in `st`; it
      stops at an unreadable child. */
  function ParseFrom(st: Labels, ks: seq<Kind>): seq<Group>
    decreases |ks|
  {
    if |ks| == 0 || ks[0].Unreadable? then []
    else Emit(st, ks[0]) + ParseFrom(Step(st, ks[0]), ks[1..])
  }

  /** How far the loop gets: the index of the first unreadable child, or
      the number of children when there is none. */
  function Reached(ks: seq<Kind>): (n: nat)
    ensures n <= |ks|
    ensures forall i :: 0 <= i < n ==> !ks[i].Unreadable?
    ensures n < |ks| ==> ks[n].Unreadable?
    decreases |ks|
  {
    if |ks| == 0 || ks[0].Unreadable? then 0 else 1 + Reached(ks[1..])
  }

  /** One year's listing: the groups emitted, in order, and whether the
      loop ended on an unreadable child. */
  datatype Parsed = Parsed(groups: seq<Group>, broken: bool)

  /** The groups of one year's listing; labels start as `Undefined`. */
  function Parse(cs: seq<Node>): Parsed {
    var ks := Kinds(cs);
    Parsed(ParseFrom(Start, ks), Reached(ks) < |ks|)
  }

  /** The labels in force when child `k` is visited. */
  function LabelsAt(ks: seq<Kind>, k: nat): Labels
    requires k <= |ks|
  {
    if k == 0 then Start else Step(LabelsAt(ks, k - 1), ks[k - 1])
  }

  /** The indices of the list children among the first `k`, ascending. */
  function ListPositions(ks: seq<Kind>, k: nat): (ps: seq<nat>)
    requires k <= |ks|
    ensures forall j :: 0 <= j < |ps| ==> ps[j] < k && ks[ps[j]].List?
  {
    if k == 0 then []
    else ListPositions(ks, k - 1) + (if ks[k - 1].List? then [k - 1] else [])
  }

  /** Every list child among the first `k` is listed, in ascending order. */
  lemma {:induction false} ListPositionsComplete(ks: seq<Kind>, k: nat)
    requires k <= |ks|
    ensures forall i :: 0 <= i < k && ks[i].List? ==> i in ListPositions(ks, k)
    ensures forall j, j' :: 0 <= j < j' < |ListPositions(ks, k)| ==> ListPositions(ks, k)[j] < ListPositions(ks, k)[j']
    decreases k
  {
    if k > 0 {
      ListPositionsComplete(ks, k - 1);
    }
  }

  /** The group a list child at index `p` stands for. */
  function GroupAt(ks: seq<Kind>, p: nat): Group
    requires p < |ks| && ks[p].List?
  {
    var st := LabelsAt(ks, p);
    Group(st.tab, st.title, ks[p].anchors)
  }

  /** The groups emitted by the first `k` children. */
  function Emitted(ks: seq<Kind>, k: nat): seq<Group>
    requires k <= |ks|
  {
    if k == 0 then [] else Emitted(ks, k - 1) + Emit(LabelsAt(ks, k - 1), ks[k - 1])
  }

  lemma {:induction false} ParseSplit(ks: seq<Kind>, k: nat)
    requires k <= Reached(ks)
    ensures ParseFrom(Start, ks) == Emitted(ks, k) + ParseFrom(LabelsAt(ks, k), ks[k..])
    decreases k
  {
    if k > 0 {
      ParseSplit(ks, k - 1);
      var rest := ks[k - 1..];
      assert rest[0] == ks[k - 1] && rest[1..] == ks[k..];
    } else {
      assert ks[0..] == ks;
    }
  }

  lemma {:induction false} EmittedAreGroupsAt(ks: seq<Kind>, k: nat)
    requires k <= |ks|
    ensures |Emitted(ks, k)| == |ListPositions(ks, k)|
    ensures forall j :: 0 <= j < |Emitted(ks, k)| ==> Emitted(ks, k)[j] == GroupAt(ks, ListPositions(ks, k)[j])
    decreases k
  {
    if k > 0 {
      EmittedAreGroupsAt(ks, k - 1);
      var e, ps := Emitted(ks, k - 1), ListPositions(ks, k - 1);
      if ks[k - 1].List? {
        assert Emitted(ks, k) == e + [GroupAt(ks, k - 1)];
        assert ListPositions(ks, k) == ps + [k - 1];
      } else {
        assert Emitted(ks, k) == e;
        assert ListPositions(ks, k) == ps;
      }
    }
  }

  /** Exactly the `ul` children are lists: `ul` contains no `h`. */
  lemma ListIffUl(n: Node)
    ensures Classify(n).List? <==> n.Tag? && n.name == "ul"
  {
    if n.Tag? && n.name == "ul" {
      assert 'h' !in n.name;
      if Contains(n.name, "h") {
        ContainsFirstChar(n.name, "h");
      }
    }
  }

  /** Exactly the `div` children without a `p` end the loop: `div` contains
      no `h`. */
  lemma UnreadableIffBareDiv(n: Node)
    ensures Classify(n).Unreadable? <==> n.Tag? && n.name == "div" && n.firstP.None?
  {
    if n.Tag? && n.name == "div" {
      assert 'h' !in n.name;
      if Contains(n.name, "h") {
        ContainsFirstChar(n.name, "h");
      }
    }
  }

  /** The loop reads the children up to the first `div` without a `p`, or
      all of them; the listing is broken exactly when there is such a
      `div`. */
  lemma ReachedIsFirstBareDiv(cs: seq<Node>)
    ensures forall i :: 0 <= i < Reached(Kinds(cs)) ==> !(cs[i].Tag? && cs[i].name == "div" && cs[i].firstP.None?)
    ensures Parse(cs).broken <==> Reached(Kinds(cs)) < |cs|
    ensures Reached(Kinds(cs)) < |cs| ==> var n := Reached(Kinds(cs)); cs[n].Tag? && cs[n].name == "div" && cs[n].firstP.None?
  {
    var ks := Kinds(cs);
    forall i | 0 <= i < |cs| ensures ks[i].Unreadable? <==> cs[i].Tag? && cs[i].name == "div" && cs[i].firstP.None? {
      UnreadableIffBareDiv(cs[i]);
    }
  }

  /** The list positions the loop reaches are exactly the `ul` children
      before the first `div` without a `p`, in document order. */
  lemma ListPositionsAreUls(cs: seq<Node>)
    ensures forall j :: 0 <= j < |ListPositions(Kinds(cs), Reached(Kinds(cs)))| ==>
              var p := ListPositions(Kinds(cs), Reached(Kinds(cs)))[j];
              cs[p].Tag? && cs[p].name == "ul"
    ensures forall i :: 0 <= i < Reached(Kinds(cs)) && cs[i].Tag? && cs[i].name == "ul" ==>
              i in ListPositions(Kinds(cs), Reached(Kinds(cs)))
    ensures forall j, j' :: 0 <= j < j' < |ListPositions(Kinds(cs), Reached(Kinds(cs)))| ==>
              ListPositions(Kinds(cs), Reached(Kinds(cs)))[j] < ListPositions(Kinds(cs), Reached(Kinds(cs)))[j']
  {
    var ks := Kinds(cs);
    ListPositionsComplete(ks, Reached(ks));
    forall i | 0 <= i < |cs| ensures ks[i].List? <==> cs[i].Tag? && cs[i].name == "ul" {
      ListIffUl(cs[i]);
    }
  }

  /** The fold emits exactly one group per list position it reaches, in
      order; each carries that child's anchors and the labels in force when
      it was reached. */
  lemma ParseIsOneGroupPerList(cs: seq<Node>)
    ensures |Parse(cs).groups| == |ListPositions(Kinds(cs), Reached(Kinds(cs)))|
    ensures forall j :: 0 <= j < |Parse(cs).groups| ==>
              var p := ListPositions(Kinds(cs), Reached(Kinds(cs)))[j];
              Parse(cs).groups[j] == Group(LabelsAt(Kinds(cs), p).tab, LabelsAt(Kinds(cs), p).title, cs[p].anchors)
  {
    var ks := Kinds(cs);
    var n := Reached(ks);
    GroupsAreEmitted(ks);
    EmittedAreGroupsAt(ks, n);
    forall j | 0 <= j < |Parse(cs).groups|
      ensures var p := ListPositions(ks, n)[j];
              Parse(cs).groups[j] == Group(LabelsAt(ks, p).tab, LabelsAt(ks, p).title, cs[p].anchors)
    {
      var p := ListPositions(ks, n)[j];
      ListIffUl(cs[p]);
    }
  }

  /** The fold's groups are those emitted up to the point it reaches. */
  lemma GroupsAreEmitted(ks: seq<Kind>)
    ensures ParseFrom(Start, ks) == Emitted(ks, Reached(ks))
  {
    var n := Reached(ks);
    ParseSplit(ks, n);
    if n == |ks| {
      assert ks[n..] == [];
    } else {
      assert ks[n..][0] == ks[n];
    }
  }

  /** Which of the two sticky labels is meant. */
  datatype Slot = TabSlot | TitleSlot

  /** The children that set the label in `slot`: headings for the
      category, `p`/`div` for the title. */
  predicate Sets(k: Kind, slot: Slot) {
    if slot == TabSlot then k.Heading? else k.Caption?
  }

  function Current(st: Labels, slot: Slot): string {
    if slot == TabSlot then st.tab else st.title
  }

  /** The index of the last child before `k` that sets `slot`, if any. */
  function LastSetter(ks: seq<Kind>, k: nat, slot: Slot): (r: Option<nat>)
    requires k <= |ks|
    ensures r.None? ==> forall i :: 0 <= i < k ==> !Sets(ks[i], slot)
    ensures r.Some? ==> r.value < k && Sets(ks[r.value], slot)
                        && forall m :: r.value < m < k ==> !Sets(ks[m], slot)
  {
    if k == 0 then None
    else if Sets(ks[k - 1], slot) then Some(k - 1)
    else LastSetter(ks, k - 1, slot)
  }

  /** Sticky labels: the label in force at child `k` is the text of the most
      recent child before it that sets that label, or `Undefined` when there
      is none (so both labels start afresh with every listing). */
  lemma {:induction false} Sticky(ks: seq<Kind>, k: nat, slot: Slot)
    requires k <= |ks|
    ensures Current(LabelsAt(ks, k), slot)
            == match LastSetter(ks, k, slot)
               case None => Undefined
               case Some(i) => ks[i].text
    decreases k
  {
    if k > 0 {
      Sticky(ks, k - 1, slot);
    }
  }

  /** A label usable as one path segment: the placeholder, or a stripped
      text without `/`. */
  predicate CleanLabel(s: string) {
    '/' !in s && (s == Undefined || Trimmed(s))
  }

  /** Every heading or title text among `ks` is clean. */
  predicate CleanKinds(ks: seq<Kind>) {
    forall i :: 0 <= i < |ks| && (ks[i].Heading? || ks[i].Caption?) ==> CleanLabel(ks[i].text)
  }

  lemma ClassifiedLabelClean(n: Node)
    ensures Classify(n).Heading? || Classify(n).Caption? ==> CleanLabel(Classify(n).text)
  {
    if n.Tag? {
      LabelClean(n.strings);
      if n.firstP.Some? {
        LabelClean(n.firstP.value);
      }
    }
  }

  lemma KindsClean(cs: seq<Node>)
    ensures CleanKinds(Kinds(cs))
  {
    var ks := Kinds(cs);
    forall i | 0 <= i < |ks| && (ks[i].Heading? || ks[i].Caption?)
      ensures CleanLabel(ks[i].text)
    {
      ClassifiedLabelClean(cs[i]);
    }
  }

  predicate CleanLabels(st: Labels) {
    CleanLabel(st.tab) && CleanLabel(st.title)
  }

  lemma {:induction false} LabelsAtClean(ks: seq<Kind>, k: nat)
    requires k <= |ks| && CleanKinds(ks)
    ensures CleanLabels(LabelsAt(ks, k))
    decreases k
  {
    if k > 0 {
      LabelsAtClean(ks, k - 1);
      assert ks[k - 1].Heading? || ks[k - 1].Caption? ==> CleanLabel(ks[k - 1].text);
    } else {
      assert '/' !in Undefined;
    }
  }

  /** Every emitted group has labels without `/` that are either the
      placeholder or stripped text. */
  lemma ParseLabelsClean(cs: seq<Node>)
    ensures forall g :: g in Parse(cs).groups ==> CleanLabel(g.tab) && CleanLabel(g.title)
  {
    var ks := Kinds(cs);
    var n := Reached(ks);
    KindsClean(cs);
    GroupsAreEmitted(ks);
    EmittedAreGroupsAt(ks, n);
    forall g | g in Parse(cs).groups
      ensures CleanLabel(g.tab) && CleanLabel(g.title)
    {
      var j :| 0 <= j < |Parse(cs).groups| && Parse(cs).groups[j] == g;
      LabelsAtClean(ks, ListPositions(ks, n)[j]);
    }
  }
}

=== FILE: selection.dfy ===
/** Which links of a group survive: the content mode picks the exam
    ("Prova") and/or answer-key ("Gabarito") anchor, the `http//` typo is
    cut out of their hrefs, strict mode drops incomplete groups, and the
    substring filters on links, titles and categories null links. */
module Selection {
  import opened Wrappers
  import opened Text
  import opened Listing

  /** The filter settings of a year-mode run. `typeMode`: 0 none,
      1 inclusive (and the year list is the loop), 2 exclusive; any other
      value filters inclusively. `mode`: 0 exam only, 1 answers only,
      2 both, 3 both strictly; any other value behaves like 2. */
  datatype Filters = Filters(
    typeMode: int,
    mode: int,
    inLink: seq<string>,
    inTab: seq<string>,
    inTitle: seq<string>,
    years: seq<int>)

  /** The exam and answer-key anchors of one group while it is filtered. */
  datatype Pair = Pair(exam: Option<Anchor>, answers: Option<Anchor>)

  const Neither: Pair := Pair(None, None)

  /** The malformed scheme fragment found in one year's hrefs. */
  const Typo: string := "http//"

  /** Reading `a["href"]` on an anchor without one. */
  const MissingHref: Failure := Uncaught("KeyError: 'href'")

  /** The index of the first anchor whose text is exactly `text`. */
  function FirstWithText(anchors: seq<Anchor>, text: string): (r: Option<nat>)
    ensures r.None? ==> forall i :: 0 <= i < |anchors| ==> anchors[i].text != text
    ensures r.Some? ==> r.value < |anchors| && anchors[r.value].text == text
                        && forall j :: 0 <= j < r.value ==> anchors[j].text != text
    decreases |anchors|
  {
    if |anchors| == 0 then None
    else if anchors[0].text == text then Some(0)
    else match FirstWithText(anchors[1..], text)
      case None => None
      case Some(i) => Some(i + 1)
  }

  /** `ul.find('a', string=text)`. */
  function FindAnchor(anchors: seq<Anchor>, text: string): Option<Anchor> {
    match FirstWithText(anchors, text)
    case None => None
    case Some(i) => Some(anchors[i])
  }

  /** `href.replace("http//", "")`. */
  function FixHref(href: string): string {
    Replace(href, Typo, "")
  }

  /** The anchor with its href, if it has one, normalised. */
  function Normalized(a: Option<Anchor>): Option<Anchor> {
    match a
    case Some(Anchor(text, Some(h))) => Some(Anchor(text, Some(FixHref(h))))
    case _ => a
  }

  /** The anchors the content mode asks for, normalised. */
  function Extract(mode: int, anchors: seq<Anchor>): Pair {
    Pair(
      if mode != 1 then Normalized(FindAnchor(anchors, "Prova")) else None,
      if mode != 0 then Normalized(FindAnchor(anchors, "Gabarito")) else None)
  }

  /** Strict mode skips a group that lacks either link at extraction. */
  predicate DroppedByStrict(mode: int, p: Pair) {
    mode == 3 && !(p.exam.Some? && p.answers.Some?)
  }

  /** The condition under which one filter string `f` nulls a field `s`. */
  predicate Hits(typeMode: int, s: string, f: string) {
    Contains(s, f) == (typeMode == 2)
  }

  /** Reference meaning of a filter list on one field: exclusive filtering
      keeps the field when no string occurs in it, any other filtering when
      every string does. */
  predicate Passes(typeMode: int, fs: seq<string>, s: string) {
    if typeMode == 2 then forall i :: 0 <= i < |fs| ==> !Contains(s, fs[i])
    else forall i :: 0 <= i < |fs| ==> Contains(s, fs[i])
  }

  /** An anchor is usable when it is absent or has an href. */
  predicate HasHref(a: Option<Anchor>) {
    a.None? || a.value.href.Some?
  }

  /** The loop over `Inlink`: in each round the exam, then the answer key,
      is nulled when the filter string hits its href. */
  function LinkLoop(typeMode: int, fs: seq<string>, p: Pair): Result<Pair>
    decreases |fs|
  {
    if |fs| == 0 then Ok(p)
    else if !HasHref(p.exam) then Fail(MissingHref)
    else
      var exam := if p.exam.Some? && Hits(typeMode, p.exam.value.href.value, fs[0]) then None else p.exam;
      if !HasHref(p.answers) then Fail(MissingHref)
      else
        var answers := if p.answers.Some? && Hits(typeMode, p.answers.value.href.value, fs[0]) then None else p.answers;
        LinkLoop(typeMode, fs[1..], Pair(exam, answers))
  }

  /** One link after the link filter, decided on its own. */
  function KeepLink(typeMode: int, fs: seq<string>, a: Option<Anchor>): Option<Anchor> {
    if a.Some? && a.value.href.Some? && !Passes(typeMode, fs, a.value.href.value) then None else a
  }

  lemma PassesCons(typeMode: int, fs: seq<string>, s: string)
    requires |fs| > 0
    ensures Passes(typeMode, fs, s) <==> !Hits(typeMode, s, fs[0]) && Passes(typeMode, fs[1..], s)
  {
    if typeMode == 2 {
      if !Contains(s, fs[0]) && Passes(typeMode, fs[1..], s) {
        forall i | 0 <= i < |fs| ensures !Contains(s, fs[i]) {
          if i > 0 { assert fs[i] == fs[1..][i - 1]; }
        }
      }
    } else {
      if Contains(s, fs[0]) && Passes(typeMode, fs[1..], s) {
        forall i | 0 <= i < |fs| ensures Contains(s, fs[i]) {
          if i > 0 { assert fs[i] == fs[1..][i - 1]; }
        }
      }
    }
  }

  /** The link filter decides the exam and the answer key independently: a
      link survives exactly when every filter string passes it, and the
      loop fails only when a present anchor has no href to test. */
  lemma {:induction false} LinkLoopIsIndependent(typeMode: int, fs: seq<string>, p: Pair)
    ensures LinkLoop(typeMode, fs, p)
            == if |fs| > 0 && !(HasHref(p.exam) && HasHref(p.answers)) then Fail(MissingHref)
               else Ok(Pair(KeepLink(typeMode, fs, p.exam), KeepLink(typeMode, fs, p.answers)))
    decreases |fs|
  {
    if |fs| > 0 && HasHref(p.exam) && HasHref(p.answers) {
      var exam := if p.exam.Some? && Hits(typeMode, p.exam.value.href.value, fs[0]) then None else p.exam;
      var answers := if p.answers.Some? && Hits(typeMode, p.answers.value.href.value, fs[0]) then None else p.answers;
      LinkLoopIsIndependent(typeMode, fs[1..], Pair(exam, answers));
      if p.exam.Some? { PassesCons(typeMode, fs, p.exam.value.href.value); }
      if p.answers.Some? { PassesCons(typeMode, fs, p.answers.value.href.value); }
    } else if |fs| == 0 {
      assert KeepLink(typeMode, fs, p.exam) == p.exam;
      assert KeepLink(typeMode, fs, p.answers) == p.answers;
    }
  }

  /** The loop over `InTitle` (or `InTab`): a hit nulls both links. */
  function LabelLoop(typeMode: int, fs: seq<string>, field: string, p: Pair): Pair
    decreases |fs|
  {
    if |fs| == 0 then p
    else LabelLoop(typeMode, fs[1..], field, if Hits(typeMode, field, fs[0]) then Neither else p)
  }

  /** A field filter keeps the group exactly when the field passes it, and
      otherwise leaves neither link. */
  lemma {:induction false} LabelLoopKeepsIffPasses(typeMode: int, fs: seq<string>, field: string, p: Pair)
    ensures LabelLoop(typeMode, fs, field, p) == if Passes(typeMode, fs, field) then p else Neither
    decreases |fs|
  {
    if |fs| > 0 {
      PassesCons(typeMode, fs, field);
      var q := if Hits(typeMode, field, fs[0]) then Neither else p;
      LabelLoopKeepsIffPasses(typeMode, fs[1..], field, q);
      if Hits(typeMode, field, fs[0]) {
        assert LabelLoop(typeMode, fs[1..], field, Neither) == Neither by {
          LabelLoopKeepsIffPasses(typeMode, fs[1..], field, Neither);
        }
      }
    }
  }

  /** Lines 226-246: nothing happens under `Type` 0; otherwise the link
      filter, then the title filter, then the category filter. */
  function Filter(spec: Filters, tab: string, title: string, p: Pair): Result<Pair> {
    if spec.typeMode == 0 then Ok(p)
    else match LinkLoop(spec.typeMode, spec.inLink, p)
      case Fail(e) => Fail(e)
      case Ok(q) => Ok(LabelLoop(spec.typeMode, spec.inTab, tab, LabelLoop(spec.typeMode, spec.inTitle, title, q)))
  }

  /** The links one group hands to the downloader: `Exam and Exam["href"]`
      and the same for the answer key. */
  datatype Planned = Planned(tab: string, title: string, exam: Option<string>, answers: Option<string>)

  /** `a and a["href"]`. */
  function HrefOf(a: Option<Anchor>): Result<Option<string>> {
    match a
    case None => Ok(None)
    case Some(Anchor(_, None)) => Fail(MissingHref)
    case Some(Anchor(_, Some(h))) => Ok(Some(h))
  }

  /** The decision for one group: `Ok(None)` when strict mode skips it,
      `Ok(Some(plan))` otherwise, or the failure that ends the run. */
  function Select(spec: Filters, g: Group): Result<Option<Planned>> {
    var p := Extract(spec.mode, g.anchors);
    if DroppedByStrict(spec.mode, p) then Ok(None)
    else match Filter(spec, g.tab, g.title, p)
      case Fail(e) => Fail(e)
      case Ok(q) =>
        match HrefOf(q.exam)
        case Fail(e) => Fail(e)
        case Ok(exam) =>
          match HrefOf(q.answers)
          case Fail(e) => Fail(e)
          case Ok(answers) => Ok(Some(Planned(g.tab, g.title, exam, answers)))
  }

  /** Whether the group gets past strict mode and the filters to line 249,
      where its directory is made before the hrefs are read at line 252. */
  predicate ReachesDownloads(spec: Filters, g: Group) {
    var p := Extract(spec.mode, g.anchors);
    !DroppedByStrict(spec.mode, p) && Filter(spec, g.tab, g.title, p).Ok?
  }

  /** Reference meaning of the filters for one extracted link: it survives
      with its href when the filters are off, or when its href passes the
      link filter and the group's title and category pass theirs. */
  function Survivor(spec: Filters, g: Group, a: Option<Anchor>): Option<string>
    requires HasHref(a)
  {
    if a.Some? && (spec.typeMode == 0
                   || (Passes(spec.typeMode, spec.inLink, a.value.href.value)
                       && Passes(spec.typeMode, spec.inTitle, g.title)
                       && Passes(spec.typeMode, spec.inTab, g.tab)))
    then a.value.href
    else None
  }

  lemma FilterMeaning(spec: Filters, g: Group, p: Pair)
    requires HasHref(p.exam) && HasHref(p.answers)
    ensures Filter(spec, g.tab, g.title, p).Ok?
    ensures HrefOf(Filter(spec, g.tab, g.title, p).value.exam) == Ok(Survivor(spec, g, p.exam))
    ensures HrefOf(Filter(spec, g.tab, g.title, p).value.answers) == Ok(Survivor(spec, g, p.answers))
  {
    if spec.typeMode != 0 {
      LinkLoopIsIndependent(spec.typeMode, spec.inLink, p);
      var q := Pair(KeepLink(spec.typeMode, spec.inLink, p.exam), KeepLink(spec.typeMode, spec.inLink, p.answers));
      LabelLoopKeepsIffPasses(spec.typeMode, spec.inTitle, g.title, q);
      var r := LabelLoop(spec.typeMode, spec.inTitle, g.title, q);
      LabelLoopKeepsIffPasses(spec.typeMode, spec.inTab, g.tab, r);
    }
  }

  /** When every extracted anchor has an href, a group that strict mode
      keeps is planned with exactly the surviving hrefs. */
  lemma SelectMeaning(spec: Filters, g: Group)
    requires HasHref(Extract(spec.mode, g.anchors).exam) && HasHref(Extract(spec.mode, g.anchors).answers)
    ensures var p := Extract(spec.mode, g.anchors);
            Select(spec, g)
            == if DroppedByStrict(spec.mode, p) then Ok(None)
               else Ok(Some(Planned(g.tab, g.title, Survivor(spec, g, p.exam), Survivor(spec, g, p.answers))))
  {
    FilterMeaning(spec, g, Extract(spec.mode, g.anchors));
  }

  /** A group is skipped without a plan exactly when strict mode is on and
      the exam or the answer key was missing at extraction; filtering cannot
      cause a skip, so strictness is judged before any filter runs. */
  lemma SkippedIffStrictAndIncomplete(spec: Filters, g: Group)
    ensures Select(spec, g) == Ok(None)
            <==> spec.mode == 3 && !(FindAnchor(g.anchors, "Prova").Some? && FindAnchor(g.anchors, "Gabarito").Some?)
  {
  }

  /** Mode 1 never plans an exam and mode 0 never plans an answer key. */
  lemma ModeExcludes(spec: Filters, g: Group)
    requires Select(spec, g).Ok? && Select(spec, g).value.Some?
    ensures spec.mode == 1 ==> Select(spec, g).value.value.exam.None?
    ensures spec.mode == 0 ==> Select(spec, g).value.value.answers.None?
  {
    var p := Extract(spec.mode, g.anchors);
    if spec.typeMode != 0 {
      LinkLoopIsIndependent(spec.typeMode, spec.inLink, p);
      if LinkLoop(spec.typeMode, spec.inLink, p).Ok? {
        var q := LinkLoop(spec.typeMode, spec.inLink, p).value;
        LabelLoopKeepsIffPasses(spec.typeMode, spec.inTitle, g.title, q);
        LabelLoopKeepsIffPasses(spec.typeMode, spec.inTab, g.tab, LabelLoop(spec.typeMode, spec.inTitle, g.title, q));
      }
    }
  }

  /** Filtering never introduces or alters a link: each planned link is
      absent or is the normalised href extracted for it. */
  lemma FilterOnlyRemoves(spec: Filters, g: Group)
    requires Select(spec, g).Ok? && Select(spec, g).value.Some?
    ensures var p := Extract(spec.mode, g.anchors);
            var plan := Select(spec, g).value.value;
            && (plan.exam.None? || (p.exam.Some? && plan.exam == p.exam.value.href))
            && (plan.answers.None? || (p.answers.Some? && plan.answers == p.answers.value.href))
  {
    var p := Extract(spec.mode, g.anchors);
    if spec.typeMode != 0 {
      LinkLoopIsIndependent(spec.typeMode, spec.inLink, p);
      if LinkLoop(spec.typeMode, spec.inLink, p).Ok? {
        var q := LinkLoop(spec.typeMode, spec.inLink, p).value;
        LabelLoopKeepsIffPasses(spec.typeMode, spec.inTitle, g.title, q);
        LabelLoopKeepsIffPasses(spec.typeMode, spec.inTab, g.tab, LabelLoop(spec.typeMode, spec.inTitle, g.title, q));
      }
    }
  }

  /** The run fails on a group exactly when strict mode keeps it, one of its
      extracted anchors has no href, and that anchor is read: by a non-empty
      link filter, or because the title and category filters let it reach
      the download list. */
  lemma FailsIffHrefRead(spec: Filters, g: Group)
    ensures var p := Extract(spec.mode, g.anchors);
            Select(spec, g).Fail?
            <==> && !DroppedByStrict(spec.mode, p)
                 && !(HasHref(p.exam) && HasHref(p.answers))
                 && (|| spec.typeMode == 0
                     || |spec.inLink| > 0
                     || (Passes(spec.typeMode, spec.inTitle, g.title) && Passes(spec.typeMode, spec.inTab, g.tab)))
  {
    var p := Extract(spec.mode, g.anchors);
    if spec.typeMode != 0 {
      LinkLoopIsIndependent(spec.typeMode, spec.inLink, p);
      if LinkLoop(spec.typeMode, spec.inLink, p).Ok? {
        var q := LinkLoop(spec.typeMode, spec.inLink, p).value;
        LabelLoopKeepsIffPasses(spec.typeMode, spec.inTitle, g.title, q);
        LabelLoopKeepsIffPasses(spec.typeMode, spec.inTab, g.tab, LabelLoop(spec.typeMode, spec.inTitle, g.title, q));
      }
    }
  }

  /** An href is changed by normalisation exactly when it contains the
      typo, and normalisation never lengthens it. */
  lemma FixHrefChangesIffTypo(h: string)
    ensures FixHref(h) == h <==> !Contains(h, Typo)
    ensures |FixHref(h)| <= |h|
  {
    DeleteShrinks(h, Typo);
  }

  /** The typo is cut out wherever it stands. */
  lemma FixHrefExample()
    ensures FixHref("http//dominio.com/prova.pdf") == "dominio.com/prova.pdf"
  {
    var rest := "dominio.com/prova.pdf";
    assert "http//dominio.com/prova.pdf" == Typo + rest;
    assert 'h' !in rest;
    FixHrefKeepsClean(rest);
    assert Typo <= Typo + rest;
    assert (Typo + rest)[|Typo|..] == rest;
  }

  /** Normalisation is not idempotent: removing one occurrence can join the
      text around it into a new one. */
  lemma FixHrefNotIdempotent()
    ensures FixHref("hthttp//tp//") == Typo
    ensures FixHref(FixHref("hthttp//tp//")) != FixHref("hthttp//tp//")
  {
    FixHrefJoinsTypo();
    FixHrefChangesIffTypo(Typo);
    assert Contains(Typo, Typo);
  }

  /** Removing the inner `http//` of `hthttp//tp//` joins `ht` and `tp//`. */
  lemma FixHrefJoinsTypo()
    ensures FixHref("hthttp//tp//") == Typo
  {
    var s := "hthttp//tp//";
    assert s[2] != Typo[2] && s[1] != Typo[0];
    assert !(Typo <= s) && !(Typo <= s[1..]) && Typo <= s[2..];
    assert s[2..][|Typo|..] == "tp//";
    assert 'h' !in "tp//";
    FixHrefKeepsClean("tp//");
    assert FixHref(s) == [s[0]] + ([s[1]] + FixHref("tp//"));
    assert [s[0]] + ([s[1]] + "tp//") == Typo;
  }

  /** An href without the typo is used as it is. */
  lemma FixHrefKeepsClean(h: string)
    requires 'h' !in h
    ensures FixHref(h) == h
  {
    if Contains(h, Typo) {
      ContainsFirstChar(h, Typo);
    }
    ReplaceAbsent(h, Typo, "");
  }

  /** Strictness is judged before filtering: a strict group with both links
      is still planned with only its exam when the link filter rejects the
      answer key's href. */
  lemma StrictThenFilterLeavesOneLink(tab: string, title: string, exam: string, answers: string, f: string)
    requires !Contains(exam, Typo) && !Contains(answers, Typo)
    requires Contains(exam, f) && !Contains(answers, f)
    ensures Select(Filters(1, 3, [f], [], [], []),
                   Group(tab, title, [Anchor("Prova", Some(exam)), Anchor("Gabarito", Some(answers))]))
            == Ok(Some(Planned(tab, title, Some(exam), None)))
  {
    var anchors := [Anchor("Prova", Some(exam)), Anchor("Gabarito", Some(answers))];
    FixHrefChangesIffTypo(exam);
    FixHrefChangesIffTypo(answers);
    assert FindAnchor(anchors, "Prova") == Some(anchors[0]);
    assert FindAnchor(anchors, "Gabarito") == Some(anchors[1]);
    assert Extract(3, anchors) == Pair(Some(anchors[0]), Some(anchors[1]));
    PassesOne(1, f, exam);
    PassesOne(1, f, answers);
    SelectMeaning(Filters(1, 3, [f], [], [], []), Group(tab, title, anchors));
  }

  lemma PassesOne(typeMode: int, f: string, s: string)
    ensures Passes(typeMode, [f], s) <==> Contains(s, f) != (typeMode == 2)
  {
    assert [f][0] == f;
  }
}

=== FILE: text.dfy ===
/** The string primitives the crawler relies on, with Python's meaning:
    `str.strip()`, BeautifulSoup's `get_text(strip=True)`, the `in` operator
    on strings, `str.replace` and `str(int)`. */
module Text {

  /** Python's `str.isspace()` for one character: exactly the characters that
      `str.strip()` removes. */
  predicate IsSpace(c: char) {
    var n := c as int;
    n == 0x20 || 0x09 <= n <= 0x0D || 0x1C <= n <= 0x1F || n == 0x85 || n == 0xA0
    || n == 0x1680 || 0x2000 <= n <= 0x200A || n == 0x2028 || n == 0x2029
    || n == 0x202F || n == 0x205F || n == 0x3000
  }

  predicate AllSpace(s: string) {
    forall i :: 0 <= i < |s| ==> IsSpace(s[i])
  }

  /** True when `s` neither starts nor ends with whitespace. */
  predicate Trimmed(s: string) {
    |s| == 0 || (!IsSpace(s[0]) && !IsSpace(s[|s| - 1]))
  }

  function TrimLeft(s: string): (r: string)
    ensures |r| <= |s| && r == s[|s| - |r|..]
    ensures AllSpace(s[..|s| - |r|])
    ensures |r| == 0 || !IsSpace(r[0])
    decreases |s|
  {
    if |s| > 0 && IsSpace(s[0]) then
      var r := TrimLeft(s[1..]);
      TrimLeftStep(s, r);
      r
    else s
  }

  /** A space in front extends the cut whitespace by one. */
  lemma TrimLeftStep(s: string, r: string)
    requires |s| > 0 && IsSpace(s[0])
    requires |r| <= |s| - 1 && r == s[1..][|s| - 1 - |r|..] && AllSpace(s[1..][..|s| - 1 - |r|])
    ensures r == s[|s| - |r|..] && AllSpace(s[..|s| - |r|])
  {
    assert s[..|s| - |r|] == [s[0]] + s[1..][..|s| - 1 - |r|];
  }

  function TrimRight(s: string): (r: string)
    ensures |r| <= |s| && r == s[..|r|]
    ensures AllSpace(s[|r|..])
    ensures |r| == 0 || !IsSpace(r[|r| - 1])
    decreases |s|
  {
    if |s| > 0 && IsSpace(s[|s| - 1]) then
      var r := TrimRight(s[..|s| - 1]);
      TrimRightStep(s, r);
      r
    else s
  }

  /** A space at the end extends the cut whitespace by one. */
  lemma TrimRightStep(s: string, r: string)
    requires |s| > 0 && IsSpace(s[|s| - 1])
    requires |r| <= |s| - 1 && r == s[..|s| - 1][..|r|] && AllSpace(s[..|s| - 1][|r|..])
    ensures r == s[..|r|] && AllSpace(s[|r|..])
  {
    assert s[|r|..] == s[..|s| - 1][|r|..] + [s[|s| - 1]];
  }

  /** `r` sits at offset `k` of `s` with only whitespace around it. */
  predicate Framed(s: string, r: string, k: int) {
    0 <= k <= |s| - |r| && s[k..k + |r|] == r && AllSpace(s[..k]) && AllSpace(s[k + |r|..])
  }

  /** Python's `s.strip()`: `s` is the result framed by whitespace only, and
      the result neither starts nor ends with whitespace. */
  function Strip(s: string): (r: string)
    ensures Trimmed(r)
    ensures exists k :: Framed(s, r, k)
  {
    var left := TrimLeft(s);
    var r := TrimRight(left);
    TrimsFrame(s, left, r);
    r
  }

  /** Whitespace cut from the left and then from the right leaves a framed
      core. */
  lemma TrimsFrame(s: string, left: string, r: string)
    requires |left| <= |s| && left == s[|s| - |left|..] && AllSpace(s[..|s| - |left|])
    requires |r| <= |left| && r == left[..|r|] && AllSpace(left[|r|..])
    ensures Framed(s, r, |s| - |left|)
  {
    var k := |s| - |left|;
    assert s[k..k + |r|] == left[..|r|];
    assert s[k + |r|..] == left[|r|..];
  }

  /** BeautifulSoup's `get_text(strip=True)` over a tag whose descendant text
      nodes are `strings`, in document order: every node is stripped, empty
      ones are dropped, and the rest are joined with the empty separator. */
  function GetText(strings: seq<string>): (r: string)
    ensures Trimmed(r)
    decreases |strings|
  {
    if |strings| == 0 then ""
    else
      var head := Strip(strings[0]);
      var rest := GetText(strings[1..]);
      JoinTrimmed(head, rest);
      head + rest
  }

  lemma JoinTrimmed(a: string, b: string)
    requires Trimmed(a) && Trimmed(b)
    ensures Trimmed(a + b)
  {
    if |a| > 0 && |b| > 0 {
      assert (a + b)[0] == a[0];
      assert (a + b)[|a + b| - 1] == b[|b| - 1];
    } else if |a| == 0 {
      assert a + b == b;
    } else {
      assert a + b == a;
    }
  }

  /** `sub` occurs in `s` starting at index `i`. */
  predicate OccursAt(s: string, sub: string, i: int) {
    0 <= i <= |s| - |sub| && s[i..i + |sub|] == sub
  }

  /** Python's `sub in s` (true for the empty `sub`). */
  predicate Contains(s: string, sub: string)
    decreases |s|
  {
    sub <= s || (|s| > 0 && Contains(s[1..], sub))
  }

  /** `Contains` agrees with the positional definition of a substring. */
  lemma {:induction false} ContainsIff(s: string, sub: string)
    ensures Contains(s, sub) <==> exists i :: OccursAt(s, sub, i)
    decreases |s|
  {
    if sub <= s {
      assert OccursAt(s, sub, 0);
    } else if |s| > 0 {
      assert !OccursAt(s, sub, 0);
      ContainsIff(s[1..], sub);
      if Contains(s[1..], sub) {
        var j :| OccursAt(s[1..], sub, j);
        assert s[j + 1..j + 1 + |sub|] == s[1..][j..j + |sub|];
        assert OccursAt(s, sub, j + 1);
      }
      if i :| OccursAt(s, sub, i) {
        assert s[1..][i - 1..i - 1 + |sub|] == s[i..i + |sub|];
        assert OccursAt(s[1..], sub, i - 1);
      }
    }
  }

  /** A non-empty `sub` can occur only where its first character does. */
  lemma {:induction false} ContainsFirstChar(s: string, sub: string)
    requires |sub| > 0 && Contains(s, sub)
    ensures sub[0] in s
    decreases |s|
  {
    if sub <= s {
      assert s[0] == sub[0];
    } else {
      ContainsFirstChar(s[1..], sub);
      var k :| 0 <= k < |s| - 1 && s[1..][k] == sub[0];
      assert s[k + 1] == sub[0];
    }
  }

  /** Python's `s.replace(pat, repl)` for a non-empty `pat`: occurrences are
      found left to right and never overlap. */
  function Replace(s: string, pat: string, repl: string): string
    requires |pat| > 0
    decreases |s|
  {
    if |s| == 0 then ""
    else if pat <= s then repl + Replace(s[|pat|..], pat, repl)
    else [s[0]] + Replace(s[1..], pat, repl)
  }

  /** A string without an occurrence of `pat` is left as it is. */
  lemma {:induction false} ReplaceAbsent(s: string, pat: string, repl: string)
    requires |pat| > 0 && !Contains(s, pat)
    ensures Replace(s, pat, repl) == s
    decreases |s|
  {
    if |s| > 0 {
      ReplaceAbsent(s[1..], pat, repl);
      assert [s[0]] + s[1..] == s;
    }
  }

  /** Deleting a non-empty pattern never lengthens a string, and shortens it
      exactly when the pattern occurs. */
  lemma {:induction false} DeleteShrinks(s: string, pat: string)
    requires |pat| > 0
    ensures |Replace(s, pat, "")| <= |s|
    ensures Contains(s, pat) <==> |Replace(s, pat, "")| < |s|
    decreases |s|
  {
    if |s| > 0 {
      if pat <= s {
        DeleteShrinks(s[|pat|..], pat);
      } else {
        DeleteShrinks(s[1..], pat);
      }
    }
  }

  /** Character-by-character substitution of `a` by `b`. */
  function MapChar(s: string, a: char, b: char): (r: string)
  {
    seq(|s|, i requires 0 <= i < |s| => if s[i] == a then b else s[i])
  }

  /** Replacing a one-character pattern by a one-character string rewrites
      each character independently, so the length is kept and no `a` is left
      when `a != b`. */
  lemma {:induction false} ReplaceSingleChar(s: string, a: char, b: char)
    ensures Replace(s, [a], [b]) == MapChar(s, a, b)
    ensures a != b ==> a !in Replace(s, [a], [b])
    decreases |s|
  {
    if |s| > 0 {
      ReplaceSingleChar(s[1..], a, b);
      assert [a] <= s <==> s[0] == a;
      assert s[1..] == s[|[a]|..];
      assert MapChar(s, a, b) == [if s[0] == a then b else s[0]] + MapChar(s[1..], a, b);
    }
  }

  function DigitChar(d: nat): (c: char)
    requires d < 10
    ensures '0' <= c <= '9'
  {
    ('0' as int + d) as char
  }

  function DigitValue(c: char): (d: nat)
    requires '0' <= c <= '9'
    ensures d < 10 && DigitChar(d) == c
  {
    c as int - '0' as int
  }

  predicate AllDigits(s: string) {
    forall i :: 0 <= i < |s| ==> '0' <= s[i] <= '9'
  }

  /** Python's `str(n)` for `n >= 0`: decimal digits, no leading zero. */
  function NatToString(n: nat): (r: string)
    ensures |r| > 0 && AllDigits(r)
    ensures |r| > 1 ==> r[0] != '0'
    decreases n
  {
    if n < 10 then [DigitChar(n)] else NatToString(n / 10) + [DigitChar(n % 10)]
  }

  /** Python's `str(n)` for any integer. */
  function IntToString(n: int): (r: string)
    ensures |r| > 0
    ensures r[0] == '-' <==> n < 0
  {
    if n < 0 then "-" + NatToString(-n) else NatToString(n)
  }

  /** Reads back a string of decimal digits. */
  function ParseNat(s: string): nat
    requires AllDigits(s)
    decreases |s|
  {
    if |s| == 0 then 0 else 10 * ParseNat(s[..|s| - 1]) + DigitValue(s[|s| - 1])
  }

  lemma {:induction false} ParseNatToString(n: nat)
    ensures ParseNat(NatToString(n)) == n
    decreases n
  {
    if n >= 10 {
      ParseNatToString(n / 10);
      var r := NatToString(n);
      assert r[..|r| - 1] == NatToString(n / 10);
      assert DigitValue(DigitChar(n % 10)) == n % 10;
    } else {
      assert DigitValue(DigitChar(n)) == n;
    }
  }

  lemma NatToStringInjective(a: nat, b: nat)
    requires NatToString(a) == NatToString(b)
    ensures a == b
  {
    ParseNatToString(a);
    ParseNatToString(b);
  }

  /** Distinct years give distinct `str(Year)` keys. */
  lemma IntToStringInjective(a: int, b: int)
    requires IntToString(a) == IntToString(b)
    ensures a == b
  {
    if a < 0 && b < 0 {
      var sa, sb := IntToString(a), IntToString(b);
      assert sa[1..] == NatToString(-a);
      assert sb[1..] == NatToString(-b);
      NatToStringInjective(-a, -b);
    } else if a >= 0 && b >= 0 {
      NatToStringInjective(a, b);
    }
  }
}

=== FILE: wrappers.dfy ===
/** Optional values and the ways a run of the crawler can end early. */
module Wrappers {

  /** Python's `None` or a value. */
  datatype Option<+T> = None | Some(value: T)

  /** Why a call of `Download` stops before it reaches the final log flush. */
  datatype Failure =
    /** `raise SystemExit(message)`: a deliberate, user-facing abort. */
    | Exit(message: string)
    /** An exception that no `try` in the year loop catches. */
    | Uncaught(error: string)

  /** Either a value or the failure that ended the run. */
  datatype Result<+T> = Ok(value: T) | Fail(failure: Failure)
}

=== FILE: years.dfy ===
/** Which years the year-mode loop visits, and in what order: the upper end
    of the range comes from an availability probe, `Type` 1 replaces the
    range by the user's list, and `Type` 2 skips listed years before their
    page is requested. */
module Years {
  import opened Wrappers
  import opened Http

  /** `RangeMin`: the first year of the portal's archive. */
  const FirstYear: int := 1998

  const ProbeFailed: string := "Request failed, verify computer clock synchronization or network connectivity."

  /** Lines 111-118: the page of the current year is probed, then the page
      of the year before; the first that answers 2xx becomes `RangeMax`.
      A raising request ends the run with its exception; two failed probes
      end it with a `SystemExit`. */
  function RangeMax<B>(now: int, page: int -> Reply<B>): (r: Result<int>)
    ensures r == Ok(now) <==> page(now).Answered? && Success(page(now).status)
    ensures r == Ok(now - 1)
            <==> && page(now).Answered? && !Success(page(now).status)
                 && page(now - 1).Answered? && Success(page(now - 1).status)
    ensures r.Ok? ==> r.value == now || r.value == now - 1
    ensures page(now).Raised? ==> r == Fail(Uncaught(page(now).error))
    ensures page(now).Answered? && !Success(page(now).status) && page(now - 1).Raised?
            ==> r == Fail(Uncaught(page(now - 1).error))
    ensures r == Fail(Exit(ProbeFailed))
            <==> && page(now).Answered? && !Success(page(now).status)
                 && page(now - 1).Answered? && !Success(page(now - 1).status)
  {
    match page(now)
    case Raised(e) => Fail(Uncaught(e))
    case Answered(s, _) =>
      if Success(s) then Ok(now)
      else match page(now - 1)
        case Raised(e) => Fail(Uncaught(e))
        case Answered(s', _) => if Success(s') then Ok(now - 1) else Fail(Exit(ProbeFailed))
  }

  /** The years whose pages the probe of lines 115-117 requests, in order:
      the current year, and the year before once the first answer is not
      2xx. The last one probed is the range's upper end when the probe
      succeeds. */
  function Probes<B>(now: int, page: int -> Reply<B>): (r: seq<int>)
    ensures 1 <= |r| <= 2 && r[0] == now
    ensures |r| == 2 <==> page(now).Answered? && !Success(page(now).status)
    ensures |r| == 2 ==> r[1] == now - 1
    ensures RangeMax(now, page).Ok? ==> r[|r| - 1] == RangeMax(now, page).value
  {
    if page(now).Answered? && !Success(page(now).status) then [now, now - 1] else [now]
  }

  /** Python's `range(lo, hi + 1)`. */
  function Span(lo: int, hi: int): (r: seq<int>)
    ensures |r| == if hi < lo then 0 else hi - lo + 1
    ensures forall i :: 0 <= i < |r| ==> r[i] == lo + i
    decreases hi - lo
  {
    if hi < lo then [] else [lo] + Span(lo + 1, hi)
  }

  /** Line 175: the sequence the year loop runs over. */
  function LoopYears(typeMode: int, years: seq<int>, rangeMax: int): seq<int> {
    if typeMode != 1 then Span(FirstYear, rangeMax) else years
  }

  /** Line 178: the loop skips a year before fetching it. */
  predicate SkipsYear(typeMode: int, years: seq<int>, year: int) {
    typeMode == 2 && year in years
  }

  /** The years of `loop` whose page is requested, in loop order. */
  function Fetched(typeMode: int, years: seq<int>, loop: seq<int>): (r: seq<int>)
    ensures forall i :: 0 <= i < |r| ==> r[i] in loop && !SkipsYear(typeMode, years, r[i])
    ensures forall y :: y in loop && !SkipsYear(typeMode, years, y) ==> y in r
    decreases |loop|
  {
    if |loop| == 0 then []
    else (if SkipsYear(typeMode, years, loop[0]) then [] else [loop[0]]) + Fetched(typeMode, years, loop[1..])
  }

  /** The years whose listing page a run requests, in order. */
  function VisitedYears(typeMode: int, years: seq<int>, rangeMax: int): seq<int> {
    Fetched(typeMode, years, LoopYears(typeMode, years, rangeMax))
  }

  lemma {:induction false} FetchedWithoutSkips(typeMode: int, years: seq<int>, loop: seq<int>)
    requires typeMode != 2
    ensures Fetched(typeMode, years, loop) == loop
    decreases |loop|
  {
    if |loop| > 0 {
      FetchedWithoutSkips(typeMode, years, loop[1..]);
    }
  }

  /** `Type` 1 visits exactly the user's years: in the given order, with
      duplicates, and without any range check. */
  lemma InclusiveVisitsListedYears(years: seq<int>, rangeMax: int)
    ensures VisitedYears(1, years, rangeMax) == years
  {
    FetchedWithoutSkips(1, years, years);
  }

  /** Any `Type` other than 1 and 2 visits every year from 1998 up to
      `RangeMax`, ascending. */
  lemma OtherTypesVisitWholeRange(typeMode: int, years: seq<int>, rangeMax: int)
    requires typeMode != 1 && typeMode != 2
    ensures VisitedYears(typeMode, years, rangeMax) == Span(FirstYear, rangeMax)
  {
    FetchedWithoutSkips(typeMode, years, Span(FirstYear, rangeMax));
  }

  predicate Ascending(s: seq<int>) {
    forall i, j :: 0 <= i < j < |s| ==> s[i] < s[j]
  }

  lemma AscendingCons(x: int, s: seq<int>)
    requires Ascending(s) && forall k :: 0 <= k < |s| ==> x < s[k]
    ensures Ascending([x] + s)
  {
    var r := [x] + s;
    forall i, j | 0 <= i < j < |r| ensures r[i] < r[j] {
      assert r[j] == s[j - 1];
      if i > 0 { assert r[i] == s[i - 1]; }
    }
  }

  lemma AscendingTail(s: seq<int>)
    requires Ascending(s) && |s| > 0
    ensures Ascending(s[1..]) && forall k :: 1 <= k < |s| ==> s[0] < s[k]
  {
    var t := s[1..];
    forall i, j | 0 <= i < j < |t| ensures t[i] < t[j] {
      assert t[i] == s[i + 1] && t[j] == s[j + 1];
    }
  }

  lemma {:induction false} FetchedKeepsOrder(typeMode: int, years: seq<int>, loop: seq<int>)
    requires Ascending(loop)
    ensures Ascending(Fetched(typeMode, years, loop))
    decreases |loop|
  {
    if |loop| > 0 {
      AscendingTail(loop);
      FetchedKeepsOrder(typeMode, years, loop[1..]);
      var rest := Fetched(typeMode, years, loop[1..]);
      if !SkipsYear(typeMode, years, loop[0]) {
        forall k | 0 <= k < |rest| ensures loop[0] < rest[k] {
          assert rest[k] in loop[1..];
          var m :| 0 <= m < |loop[1..]| && loop[1..][m] == rest[k];
          assert loop[1..][m] == loop[m + 1];
        }
        AscendingCons(loop[0], rest);
      }
    }
  }

  /** `Type` 2 requests the page of a year exactly when it lies in
      1998..`RangeMax` and is not listed, in ascending order. */
  lemma ExclusiveSkipsListedYears(years: seq<int>, rangeMax: int)
    ensures forall y :: y in VisitedYears(2, years, rangeMax) <==> FirstYear <= y <= rangeMax && y !in years
    ensures Ascending(VisitedYears(2, years, rangeMax))
  {
    var loop := Span(FirstYear, rangeMax);
    assert Ascending(loop);
    FetchedKeepsOrder(2, years, loop);
    forall y | FirstYear <= y <= rangeMax
      ensures y in loop
    {
      assert loop[y - FirstYear] == y;
    }
  }
}
